=== FILE: README.md ===
# Forward-mode automatic differentiation by source rewriting (js-autodiff)

autodiff.js differentiates a one-argument JavaScript function at a point by
rewriting its syntax tree. The rewrite is called `transform`. It makes these changes:

- Every numeric literal `n` becomes `Dual(n)`.
- `Math` becomes `AD`.
- Every operator found in one of three tables becomes a call on the `AD` object.
- `-x` becomes `AD.neg(x)`, `a * b` becomes `AD.mul(a, b)` and `a < b` becomes `AD.lt(a, b)`.
- `y *= e` becomes the in-place mutator call `AD.mulAssign(y, e)`.

`diff(f, at)` then runs the rewritten function with its parameter bound to
`Dual(at, 1)` and returns the gradient `g` of the result. A `Dual` is a
pair `{v, g}` of a value and its derivative. The `AD` methods carry the
derivative through the computation by the rules of calculus.

This project models that core in Dafny.

- `DualNumbers` (dual.dfy) holds the pair and the `AD` algebra:
  - `neg`, `add`, `sub`, `mul`, `div`;
  - the comparisons;
  - `abs`;
  - the eight constants.

  It works over exact reals.
- `DualCells` (cells.dfy) holds the in-place mutators, on a mutable cell.
- `Syntax` and `Rewriting` (syntax.dfy, rewriting.dfy) hold the tree, the three operator tables and `transform`.
- `Semantics` (semantics.dfy) gives two readings of a tree:
  - `Interp` reads the original tree with its operators overloaded on duals;
  - `Eval` runs the rewritten tree against the `AD` runtime.

  On the supported fragment the two agree. The fragment is: variables, literals, the `Math` constants, unary minus, `+ - * /`, and conditionals on comparisons.
- `Derivative` (derivative.dfy) is the independent reference: the program on plain numbers (`Value`) and its symbolic derivative (`Deriv`).
- `Forward` (forward.dfy) proves that the dual reading computes the value and the value of the symbolic derivative.
- `Programs` and `DiffFacts` (programs.dfy) model function bodies:
  - `var y = e`, expression statements and `return e`;
  - the harness `diff`.

  Variables there name heap objects, and the eight `AD` constants are objects on the same heap, so the aliasing behaviour of the mutators is visible. A binding `var y = e` makes `y` name an existing object whenever `e` evaluates to one: a variable, an `AD` constant, or the taken branch of a conditional. `DiffOfExpression` is the end-to-end result: for a function returning a fragment expression, `diff` yields the value of the symbolic derivative at `at`.
- `InPlaceFacts` (inplace.dfy) shows when the original's in-place lowering is right: on bodies that never bind a variable to an expression that may evaluate to an existing object, `diff` returns the gradient of what the function means.
- `Samples` (samples.dfy) holds worked cases of `diff`.
- `Aliasing` and `SharedConstant` (aliasing.dfy) hold the two aliasing cases described under Findings.

`Lowering` chooses how `++`, `--` and `op=` are rewritten:

- `InPlace` is the original: calls of the `AD` mutators.
- `Rebind` is the corrected lowering, `y = AD.mul(y, e)`.

`Transform` is the original: `Rewrite(InPlace, ·)`.

The rewritten code reaches the runtime through the globals `AD` and `Dual` (autodiff.js:185, autodiff.js:187). It looks them up like any other name, so a variable of the same name hides them:

- a parameter, including the first one;
- the function's own name;
- a `var` of the body, which is hoisted and hides the global even before it is assigned;
- a variable the body assigns.

The model does the same. `Semantics.EvalIn` takes a `Runtime`: the constants' current contents and the names the function declares without a dual. It fails on `AD.X`, an `AD` call or `Dual(n)` when the name is bound or declared. `Programs.Hidden` collects those names for `Diff`. A parameter repeated later in the list stands for a missing argument, so `Start` does not bind it.

`None` stands for every outcome the model does not follow:

- the IEEE-754 result of a division by a zero value;
- an error the original throws, such as the `ReferenceError` of a variable that is not bound when the generated code runs (autodiff.js:190);
- code outside the modelled fragment, which the original may well run, such as `Math.sin(x)` (autodiff.js:70-72).

`abs` at a zero value: `AD.abs` multiplies the gradient by NaN (autodiff.js:101, autodiff.js:103), and `Dual`'s `g || 0` (autodiff.js:7) turns that NaN gradient into 0. `Abs` of a zero value is therefore the constant zero.

## Model

| member | source | states |
|---|---|---|
| DualNumbers.Constant | autodiff.js:6-8 | `Dual(v)` without a gradient is `v` with gradient 0 |
| DualNumbers.Variable | autodiff.js:186 | the harness binds the parameter to value `at` with gradient 1 |
| DualNumbers.Add | autodiff.js:35-37 | sum of values, sum of gradients |
| DualNumbers.Neg | autodiff.js:11-13 | negates both fields; the result is the additive inverse of the operand |
| DualNumbers.Sub | autodiff.js:38-40 | difference of the fields; adding the subtrahend back gives the minuend |
| DualNumbers.Mul | autodiff.js:41-43 | product of values; gradient by the product rule |
| DualNumbers.Div | autodiff.js:44-46 | quotient of values; gradient by the quotient rule; multiplying the result by the divisor gives the dividend back |
| DualNumbers.Abs | autodiff.js:94-104 | value non-negative and ± the operand's; equals the operand above zero and its negation below; the constant zero at zero |
| DualNumbers.AbsLaws | autodiff.js:94-104 | `abs` is idempotent and even; away from zero the gradient is the operand's times the sign |
| DualNumbers.Arith | autodiff.js:35-46 | the four operations: fails exactly for a division by a zero value; otherwise the value is the arithmetic of the values and the gradient is the sum, the difference, the product rule or the quotient rule of the operands |
| DualNumbers.Step | autodiff.js:14-19 | `incr`/`decr` add ±1 to the value and keep the gradient |
| DualNumbers.ConstantNamed | autodiff.js:105-112 | name lookup of the constants is the exact inverse of their names |
| DualNumbers.ConstantDual | autodiff.js:105-112 | each constant has the value of `Math`'s constant, gradient 0, and is positive |
| DualNumbers.NegationLaws | autodiff.js:11-13 | `neg` undoes itself; `sub` is `add` of `neg`; subtracting what was added restores the operand |
| DualNumbers.RingLaws | autodiff.js:35-43 | `add` and `mul` are commutative and associative, and `mul` distributes over `add` |
| DualNumbers.ScalingLaws | autodiff.js:41-46 | multiplying by a constant scales both fields; `div` undoes `mul` by a non-zero divisor |
| DualNumbers.ComparisonsIgnoreGradient | autodiff.js:20-34 | changing either gradient never changes a comparison |
| DualNumbers.ComparisonLaws | autodiff.js:20-34 | `gt`/`gte` are the converses of `lt`/`lte`, `lte` is `lt` or `eq`, and the order is total and strict |
| DualCells.Incr | autodiff.js:14-16 | the value goes up by one in place; the gradient is kept |
| DualCells.Decr | autodiff.js:17-19 | the value goes down by one in place; the gradient is kept |
| DualCells.AddAssign | autodiff.js:47-51 | the target's fields become `add` of the old operands, also when both are the same object |
| DualCells.SubAssign | autodiff.js:52-56 | as `addAssign`, with `sub` |
| DualCells.MulAssign | autodiff.js:57-61 | as `addAssign`, with `mul` |
| DualCells.DivAssign | autodiff.js:62-66 | as `addAssign`, with `div` |
| Rewriting.TransformRules | autodiff.js:141-175 | the rule for each node kind: literal lifted to `Dual(n)`, `Math` renamed to `AD`, table operators to `AD` calls, every other node rebuilt with rewritten children |
| Rewriting.OperatorTables | autodiff.js:118-140 | `==` and `===` both map to `eq`; each compound operator's mutator is its binary method plus `Assign` |
| Rewriting.TransformWrapsLiterals | autodiff.js:142-144 | after the rewrite no bare numeric literal is left: each sits inside `Dual(n)` |
| Rewriting.TransformKeepsLiterals | autodiff.js:141-175 | the rewrite keeps the literals, in order, and adds none |
| Rewriting.TransformSettles | autodiff.js:145-174 | no `Math` and no table operator is left anywhere |
| Rewriting.TransformFixesExactlyInert | autodiff.js:141-175 | the rewrite leaves a tree unchanged if and only if it has no literal, no `Math` and no table operator |
| Rewriting.TransformTwiceDoubleWraps | autodiff.js:142-144 | the rewrite is not idempotent: a second pass changes every tree with a literal |
| Semantics.BinaryTableAgrees | autodiff.js:118-129 | each arithmetic and comparison symbol maps to the `AD` method of the same operation |
| Semantics.RewriteSound | autodiff.js:116-178 | on the fragment, in an environment with no variable `AD` or `Dual`, the rewritten tree run against `AD` equals the overloaded reading of the original, failures included |
| Semantics.RewriteTestSound | autodiff.js:20-34 | the same for the comparison of a conditional |
| Semantics.RewritePreservesMeaning | autodiff.js:116-178 | wherever the original has an overloaded meaning and no variable is `AD` or `Dual`, the rewritten tree computes that dual |
| Semantics.HiddenRuntime | autodiff.js:142-161 | a variable named `AD` makes every rewritten `AD` call and `AD` constant fail, and one named `Dual` makes every lifted literal fail |
| Forward.ProductRule | autodiff.js:41-43 | `mul` of duals that carry the operands' values and derivatives carries the value of `l*r` and of `l*dr + r*dl` |
| Forward.QuotientRule | autodiff.js:44-46 | `div` of such duals carries the value of `l/r` and of `(r*dl - l*dr)/(r*r)` |
| Forward.ForwardMode | autodiff.js:11-46 | from `Dual(at, 1)`, the dual reading exists exactly when the value does, and then carries the value and the derivative's value |
| Forward.ForwardTest | autodiff.js:20-34 | the dual reading of a comparison agrees with the comparison on numbers |
| Programs.RewriteStmt | autodiff.js:141-177 | the rewrite keeps a statement's kind and rewrites its expression |
| Programs.AssignTableAgrees | autodiff.js:135-140 | a compound operator has a mutator exactly when it is arithmetic, and the mutator performs that arithmetic |
| Programs.LocateSound | autodiff.js:105-112 | an expression that denotes an existing object (a variable's, one of the single `AD` constant objects, or that of a conditional's taken branch) evaluates to what that object holds |
| Programs.Bind | autodiff.js:163-168 | a plain assignment or `var` binds the variable to the value of the expression, fails exactly when the expression fails, keeps every existing object, and makes the variable share an existing object exactly when the expression denotes one |
| Programs.Mutate | autodiff.js:14-66 | a mutator call needs a visible `AD` and a target that denotes an existing object; it overwrites that object and nothing else, and binds no variable anew; the object becomes its old dual stepped by ±1 for `incr`/`decr`, and the old dual combined with the operand's value by the mutator's operation for `addAssign` .. `divAssign` |
| Programs.MutateAssignCall | autodiff.js:47-66 | conversely, a mutator call whose target and operand evaluate, and whose operation succeeds, overwrites the target's object with the result |
| Programs.HeapUpdate | autodiff.js:145-168 | an expression statement only overwrites or adds objects, never removes one |
| Programs.Start | autodiff.js:184-190 | the call starts with the `AD` constants as created; the first parameter names a fresh `Dual(at, 1)` unless a later parameter repeats its name, and then no variable is bound |
| Programs.Diff | autodiff.js:180-192 | `diff` of something that is not a function fails; what it returns for a function is stated by DiffFacts.DiffRebind, DiffFacts.DiffOfExpression and InPlaceFacts.DiffInPlace |
| DiffFacts.HeapEvalIntact | autodiff.js:105-112 | while no constant object has been overwritten, the rewritten code computes what it computes against the `AD` runtime as created |
| DiffFacts.DiffOfRun | autodiff.js:180-192 | `diff` returns the gradient of the rewritten body's result |
| DiffFacts.DiffFails | autodiff.js:190-191 | `diff` fails when the rewritten body fails |
| DiffFacts.HiddenNone | autodiff.js:184-190 | a function whose name, parameters and body neither declare nor assign `AD` or `Dual` hides nothing of the runtime |
| DiffFacts.BindSound | autodiff.js:163-168 | binding a rewritten expression gives the variable the original's value, whether it shares an object or gets a new one |
| DiffFacts.UpdateSound | autodiff.js:145-168 | with `Rebind`, an assignment, compound assignment, `++` or `--` updates the heap to the variables' new values |
| DiffFacts.RebindSound | autodiff.js:116-192 | with `Rebind`, a body that neither declares nor assigns `AD` or `Dual` returns, from the heap, the same dual as the original body read with value semantics |
| DiffFacts.DiffRebind | autodiff.js:180-192 | with `Rebind`, `diff` of a function that hides neither `AD` nor `Dual` and does not repeat its first parameter returns the gradient of what the function means |
| DiffFacts.DiffOfExpression | autodiff.js:180-192 | for such a function returning a fragment expression, `diff` is the value of the symbolic derivative at `at`, and fails exactly where the expression has no value |
| InPlaceFacts.NotLocated | autodiff.js:141-175 | the rewrite of an expression that is not a variable, not a property such as `Math.PI` and not a conditional with such a branch never denotes an existing object |
| InPlaceFacts.StartUnshared | autodiff.js:184-190 | at the start no variable names a constant and no two variables share an object |
| InPlaceFacts.ViewOverwrite | autodiff.js:47-66 | overwriting the fields of an object that no other variable and no constant is changes that one variable and nothing else |
| InPlaceFacts.BindKeepsUnshared | autodiff.js:163-168 | binding an expression that cannot denote an existing object creates no sharing |
| InPlaceFacts.UpdateInPlace | autodiff.js:145-168 | without sharing, an in-place `op=`, `++` or `--`, or an assignment of an expression that cannot denote an existing object, updates the variables exactly as value semantics does, shares nothing and leaves the constants intact |
| InPlaceFacts.InPlaceSound | autodiff.js:116-192 | as written, the rewritten body of a function that never binds a variable to an expression that may denote an existing object returns the same dual as the original body read with value semantics |
| InPlaceFacts.DiffInPlace | autodiff.js:180-192 | for such a function, the original `diff` returns the gradient of what the function means, and agrees with the corrected lowering |
| Samples.SquareSample | autodiff.js:180-192 | `diff` of `x * x` at `at` is `2 * at` |
| Samples.ConstantFactorSample | autodiff.js:105-112 | `diff` of `Math.PI * x` is `PI` |
| Samples.ReciprocalSample | autodiff.js:44-46 | `diff` of `1 / x` is `-1/at²` away from 0 and fails at 0 |
| Samples.HiddenRuntimeSample | autodiff.js:180-192 | `diff` of `function (AD) { return AD * AD; }` fails: the parameter hides the runtime from `AD.mul` |
| Samples.HiddenDualSample | autodiff.js:180-192 | `diff` of `function (Dual) { return Dual * 2; }` fails: the parameter hides the constructor the literal `Dual(2)` calls |
| Samples.RepeatedParameterSample | autodiff.js:184-190 | for a parameter name other than `Math`, `diff` of `function (x, x) { return x * x; }` fails: the second `x` is the missing second argument |
| Aliasing.AliasedMeaning | autodiff.js:163-168 | read with value semantics, `var y = x; y *= x; return x` returns its argument |
| Aliasing.AliasedCopies | autodiff.js:163-166 | the aliasing function binds `y` to the variable `x`, so the soundness of the in-place lowering does not reach it |
| Aliasing.InPlaceAliasing | autodiff.js:57-61 | as written, `diff` of that identity function is `2 * at` |
| Aliasing.RebindAliasing | autodiff.js:163-168 | with the corrected lowering, `diff` of that identity function is 1 |
| SharedConstant.PiMeaning | autodiff.js:105-112 | read with value semantics, `var y = Math.PI; y *= x; return Math.PI` returns the constant π |
| SharedConstant.PiOverwritten | autodiff.js:57-61 | as written, after `var y = AD.PI; AD.mulAssign(y, x)` the `AD.PI` object holds `π * x` and the constants are no longer intact |
| SharedConstant.InPlacePi | autodiff.js:105-112 | as written, `diff` of that constant function is π |
| SharedConstant.RebindPi | autodiff.js:163-168 | with the corrected lowering, `diff` of that constant function is 0 |

## Left out

- The transcendental methods `sqrt`, `sin`, `cos`, `tan`, `asin`, `acos`, `atan`, `log` and `exp` (autodiff.js:67-93) are left out. Exact reals have no such functions.
- Float64 rounding, overflow and the IEEE-754 special values are not modelled. The model computes over exact reals. The original rounds every operation, overflows to ±Infinity (`AD.mul(Dual(1e200), Dual(1e200))`), returns ±Infinity or NaN for a zero divisor, and its `g || 0` (autodiff.js:7) turns a NaN gradient into 0.
- DualNumbers.Div: requires a non-zero divisor. The original returns ±Infinity or NaN there, so `Arith`, `Interp` and `Eval` give `None` instead.
- DualCells.DivAssign: requires a non-zero divisor, for the same reason.
- The DualCells methods state in-place updates with `old`. The same updates are modelled without mutation by `Programs.Mutate` on a heap of duals.
- Calls of `Math.abs` inside a program are not in the differentiable fragment, because `abs` has no derivative at 0. `AD.abs` itself is modelled by `DualNumbers.Abs`.
- Parsing, code generation and the `vm` context of `diff` (autodiff.js:181-190) are left out, and so is the scope annotation `ast_add_scope` (autodiff.js:176). The tree is taken as given.
- The `Node` tree gives its own constructors only to the kinds the rewrite treats specially. Every other kind is an `Other` node that is rebuilt with rewritten children.
- Only `var`, expression statements and `return` are executed by `HeapRun`/`ValueRun`. Only variables are assignment targets. Loops, blocks and property assignments are rewritten by `Rewrite` but not run.
- Operators outside the three tables are left out. JavaScript's meaning of them on dual objects (string concatenation, `NaN`) is not modelled: `Interp` and `Eval` give `None`.
- Each `Diff` starts from the constants as created. In the original, `AD` is one object shared by every call of `diff` (autodiff.js:185), so a constant overwritten during one call stays overwritten for every later call. The model shows the overwrite within a call (SharedConstant.PiOverwritten) but not its effect on later calls.
- InPlaceFacts.InPlaceSound: covers only bodies that never bind a variable to an expression that may denote an existing object. On the other bodies the original's result is shown by the two examples under Findings, not characterised in general. It also requires that the body neither declares nor assigns `AD` or `Dual`.
- InPlaceFacts.UpdateInPlace: covers only statements that do not bind a variable to an expression that may denote an existing object, for the same reason. It also requires that no variable is `AD` or `Dual` and that the statement does not assign either.
- The context globals `at` and `console` are left out. The called function's first parameter is bound to `Dual(at, 1)`. Any further parameter is `undefined` in the original; the model leaves it unbound and `Hidden` records it when it is named `AD` or `Dual`. The original fails only when `undefined` is used as a dual; the model fails at the first reference, which for a dual-valued program is the same outcome.
- `Programs.Declares` finds the `var` declarations of the body. A nested function declaration also hoists its name in the original; the model does not collect those names.
- Semantics.RewriteSound: requires that no variable is named `AD` or `Dual`. Without that the original's rewritten code fails, and so does `Eval`, while the original tree may have a meaning (Semantics.HiddenRuntime).
- Semantics.RewriteTestSound: requires the same, for the same reason.
- Semantics.RewritePreservesMeaning: requires the same, for the same reason.
- DiffFacts.BindSound: requires that no variable is `AD` or `Dual` and that the function declares neither, so the rewritten code sees the runtime.
- DiffFacts.UpdateSound: requires the same, and that the statement does not assign `AD` or `Dual`.
- DiffFacts.RebindSound: requires the same, for the whole body.
- DiffFacts.DiffRebind: requires a function whose name, parameters and body neither declare nor assign `AD` or `Dual`, and whose first parameter is not repeated. On the other functions the rewritten code cannot reach the runtime or the argument; Samples.HiddenRuntimeSample, Samples.HiddenDualSample and Samples.RepeatedParameterSample show `diff` failing there.
- DiffFacts.DiffOfExpression: requires the same, for the same reason.
- InPlaceFacts.DiffInPlace: requires the same, for the same reason.
- Samples.SquareSample: requires that neither the function's name nor its parameter is `AD` or `Dual`; Samples.HiddenRuntimeSample shows the other case.
- Samples.ConstantFactorSample: requires the same, for the same reason.
- Samples.ReciprocalSample: requires the same, for the same reason.
- Aliasing.InPlaceAliasing: requires that neither the function's name nor its two variables is `AD` or `Dual`, for the same reason.
- Aliasing.RebindAliasing: requires the same.
- SharedConstant.PiOverwritten: requires that neither of its two variables is `AD` or `Dual`.
- SharedConstant.InPlacePi: requires the same.
- SharedConstant.RebindPi: requires the same.
- Samples.RepeatedParameterSample: requires that the parameter is not named `Math`, and so do Samples.SquareSample, Samples.ConstantFactorSample and Samples.ReciprocalSample. The rewrite renames every use of `Math` to `AD`, so such a parameter is replaced by the runtime object itself. Used as a dual, that object gives NaN, and `g || 0` (autodiff.js:7) turns the gradient into 0. The model does not evaluate the runtime object as a dual.

## Findings

| source | as written | input that shows it | evidently intended | confidence | as-written member | corrected member |
|---|---|---|---|---|---|---|
| autodiff.js:57-61, autodiff.js:163-166 | `y *= e` becomes `AD.mulAssign(y, e)`, which overwrites the dual object `y` names; after `var y = x` that object is also `x`'s | `diff(function (x) { var y = x; y *= x; return x; }, at)` returns `2 * at` | `y *= e` changes `y` alone, so the identity function has derivative 1 | not executed | Aliasing.InPlaceAliasing | Aliasing.RebindAliasing |
| autodiff.js:105-112, autodiff.js:57-61 | `Math.PI` becomes `AD.PI`, one object shared by every use; `var y = Math.PI` makes `y` name it, and `y *= x` becomes `AD.mulAssign(y, x)`, which overwrites it | `diff(function (x) { var y = Math.PI; y *= x; return Math.PI; }, at)` returns π, and `AD.PI` then holds `π * at` | `y *= x` changes `y` alone, so the constant function has derivative 0 and `AD.PI` stays π | not executed | SharedConstant.InPlacePi | SharedConstant.RebindPi |

=== FILE: aliasing.dfy ===
/** The aliasing case. `function f(x) { var y = x; y *= x; return x; }`
    is the identity: `y *= x` is meant to change `y` alone, so the
    derivative is 1 everywhere. The original lowers `y *= x` to the mutator
    call `AD.mulAssign(y, x)`, which overwrites the dual object `y` shares
    with `x`; `x` is then returned squared, and `diff` reports `2 * at`. */
module Aliasing {
  import opened Wrappers
  import opened DualNumbers
  import opened Syntax
  import opened Rewriting
  import opened Semantics
  import opened Programs
  import opened DiffFacts
  import opened InPlaceFacts

  /** A parameter `x` and a local `y`: two different variables, neither of
      them `Math` nor one of the runtime's globals `AD` and `Dual`. */
  predicate Distinct(x: string, y: string)
  {
    && x != y && x != "Math" && y != "Math"
    && x != "AD" && x != "Dual" && y != "AD" && y != "Dual"
  }

  /** `var y = x; y *= x; return x;` */
  function AliasedBody(x: string, y: string): seq<Node>
  {
    [StmtNode(Var(y, Name(x))), StmtNode(Expr(Assign(Compound("*"), Name(y), Name(x)))), StmtNode(Return(Name(x)))]
  }

  /** `function name(x) { var y = x; y *= x; return x; }` */
  function Aliased(name: string, x: string, y: string): Node
  {
    Function(name, [x], AliasedBody(x, y))
  }

  /** With value semantics, `y *= x` changes `y` alone. */
  lemma AliasedUpdate(x: string, y: string, at: real)
    requires Distinct(x, y)
    ensures var env := map[x := Variable(at), y := Variable(at)];
            ValueUpdate(env, Assign(Compound("*"), Name(y), Name(x))) == Some(env[y := Mul(Variable(at), Variable(at))])
  {
    var env := map[x := Variable(at), y := Variable(at)];
    assert ArithOf("*") == Some(MulOp);
    assert Interp(env, Name(x)) == Some(Variable(at));
    assert Arith(MulOp, env[y], Variable(at)) == Some(Mul(Variable(at), Variable(at)));
  }

  /** The function hides nothing of the runtime. */
  lemma AliasedHygienic(name: string, x: string, y: string)
    requires Distinct(x, y) && name != "AD" && name != "Dual"
    ensures HygienicFunction(name, [x], AliasedBody(x, y))
  {
    var ss := [Var(y, Name(x)), Expr(Assign(Compound("*"), Name(y), Name(x))), Return(Name(x))];
    assert forall i | 0 <= i < 3 :: AliasedBody(x, y)[i] == StmtNode(ss[i]);
    StmtsKeepRuntime(ss, AliasedBody(x, y));
  }

  lemma AliasedHidesNothing(name: string, x: string, y: string)
    requires Distinct(x, y) && name != "AD" && name != "Dual"
    ensures Hidden(name, [x], AliasedBody(x, y)) == {}
  {
    AliasedHygienic(name, x, y);
    HiddenNone(name, [x], AliasedBody(x, y));
  }

  /** Read with value semantics, the function returns its argument. */
  lemma AliasedMeaning(x: string, y: string, at: real)
    requires Distinct(x, y)
    ensures ValueRun(map[x := Variable(at)], AliasedBody(x, y)) == Some(Variable(at))
  {
    var body := AliasedBody(x, y);
    var env1 := map[x := Variable(at), y := Variable(at)];
    assert StmtOf(body[0]) == Some(Var(y, Name(x)));
    assert body[1..][0] == StmtNode(Expr(Assign(Compound("*"), Name(y), Name(x))));
    var env2 := env1[y := Mul(Variable(at), Variable(at))];
    AliasedUpdate(x, y, at);
    assert body[1..][1..] == [StmtNode(Return(Name(x)))];
    assert ValueRun(env2, body[1..][1..]) == Some(Variable(at));
    assert ValueRun(env1, body[1..]) == Some(Variable(at));
  }

  /** The body the original rewrite produces: `y *= x` becomes
      `AD.mulAssign(y, x)`. */
  function InPlaceBody(x: string, y: string): seq<Node>
  {
    [StmtNode(Var(y, Name(x))), StmtNode(Expr(ADCall("mulAssign", [Name(y), Name(x)]))), StmtNode(Return(Name(x)))]
  }

  /** The original rewrite of the body. */
  lemma AliasedTransform(x: string, y: string)
    requires Distinct(x, y)
    ensures RewriteBody(InPlace, AliasedBody(x, y)) == InPlaceBody(x, y)
  {
    RewriteStmt(InPlace, Var(y, Name(x)));
    RewriteStmt(InPlace, Expr(Assign(Compound("*"), Name(y), Name(x))));
    RewriteStmt(InPlace, Return(Name(x)));
  }

  /** After `var y = x; AD.mulAssign(y, x);` the object `x` and `y`
      share holds the square of the argument. */
  lemma AliasedSquares(x: string, y: string, at: real)
    requires Distinct(x, y)
    ensures var m0 := Start([x], {}, at);
            && Bind(m0, y, Name(x)).Some?
            && var m1 := Bind(m0, y, Name(x)).value;
               && m1.env[y] == m1.env[x]
               && HeapUpdate(m1, ADCall("mulAssign", [Name(y), Name(x)])).Some?
               && var m2 := HeapUpdate(m1, ADCall("mulAssign", [Name(y), Name(x)])).value;
                  && x in View(m2) && View(m2)[x] == Mul(Variable(at), Variable(at))
  {
    var m0 := Start([x], {}, at);
    var i := |Constants|;
    var m1 := m0.(env := map[x := i, y := i]);
    assert Bind(m0, y, Name(x)) == Some(m1);
    var call := ADCall("mulAssign", [Name(y), Name(x)]);
    var sq := Mul(Variable(at), Variable(at));
    assert AssignMethod("mulAssign") == Some(MulOp);
    assert HeapEval(m1, Name(x)) == Some(Variable(at));
    assert Arith(MulOp, m1.heap[i], Variable(at)) == Some(sq);
    var m2 := m1.(heap := m1.heap[i := sq]);
    assert Mutate(m1, call) == Some(m2);
    assert View(m2)[x] == sq;
  }

  /** Run on the heap, the body returns the squared argument. */
  lemma AliasedHeapRun(x: string, y: string, at: real)
    requires Distinct(x, y)
    ensures HeapRun(Start([x], {}, at), InPlaceBody(x, y)) == Some(Mul(Variable(at), Variable(at)))
  {
    AliasedSquares(x, y, at);
    var body := InPlaceBody(x, y);
    var m1 := Bind(Start([x], {}, at), y, Name(x)).value;
    var m2 := HeapUpdate(m1, ADCall("mulAssign", [Name(y), Name(x)])).value;
    StmtRoundTrip(Var(y, Name(x)));
    StmtRoundTrip(Expr(ADCall("mulAssign", [Name(y), Name(x)])));
    StmtRoundTrip(Return(Name(x)));
    assert body[1..][1..] == body[2..] == [StmtNode(Return(Name(x)))];
    assert HeapEval(m2, Name(x)) == Some(View(m2)[x]);
    assert HeapRun(m2, body[2..]) == Some(Mul(Variable(at), Variable(at)));
    assert HeapRun(m1, body[1..]) == HeapRun(m2, body[2..]);
  }

  /** `x * x` at `x = at` has gradient `2 * at`. */
  lemma SquareGradient(at: real)
    ensures Mul(Variable(at), Variable(at)).g == 2.0 * at
  {
  }

  /** The rewritten body returns a dual whose gradient is `2 * at`. */
  lemma AliasedRunGradient(x: string, y: string, at: real)
    requires Distinct(x, y)
    ensures var d := HeapRun(Start([x], {}, at), RewriteBody(InPlace, AliasedBody(x, y)));
            d.Some? && d.value.g == 2.0 * at
  {
    AliasedTransform(x, y);
    AliasedHeapRun(x, y, at);
    SquareGradient(at);
  }

  /** The body binds `y` to `x`, which is what puts it outside
      `DiffInPlace`. */
  lemma AliasedCopies(x: string, y: string)
    ensures !CopyFree(AliasedBody(x, y))
  {
    assert StmtOf(AliasedBody(x, y)[0]) == Some(Var(y, Name(x)));
  }

  /** As written: the in-place lowering differentiates the identity to
      `2 * at`. */
  lemma InPlaceAliasing(name: string, x: string, y: string, at: real)
    requires Distinct(x, y) && name != "AD" && name != "Dual"
    ensures Diff(InPlace, Aliased(name, x, y), at) == Some(2.0 * at)
  {
    AliasedHidesNothing(name, x, y);
    AliasedRunGradient(x, y, at);
    DiffOfRun(InPlace, Aliased(name, x, y), at, 2.0 * at);
  }

  /** Corrected: the `Rebind` lowering differentiates it to 1. */
  lemma RebindAliasing(name: string, x: string, y: string, at: real)
    requires Distinct(x, y) && name != "AD" && name != "Dual"
    ensures Diff(Rebind, Aliased(name, x, y), at) == Some(1.0)
  {
    AliasedHygienic(name, x, y);
    AliasedMeaning(x, y, at);
    assert [x] + [] == [x];
    DiffRebind(name, x, [], AliasedBody(x, y), at, Variable(at));
  }
}

/** The shared-constant case. `function f(x) { var y = Math.PI; y *= x;
    return Math.PI; }` is the constant π, whose derivative is 0. The
    original rewrites `Math.PI` to `AD.PI`, one object shared by every
    use; `var y = AD.PI` makes `y` name that object, and
    `AD.mulAssign(y, x)` overwrites it with `π * x`. The function then
    returns the overwritten constant and `diff` reports π. */
module SharedConstant {
  import opened Wrappers
  import opened DualNumbers
  import opened Syntax
  import opened Rewriting
  import opened Semantics
  import opened Programs
  import opened DiffFacts
  import opened InPlaceFacts
  import opened Aliasing

  /** `Math.PI` as written. */
  function Pi(): Node
  {
    Dot(Name("Math"), "PI")
  }

  /** `var y = Math.PI; y *= x; return Math.PI;` */
  function PiBody(x: string, y: string): seq<Node>
  {
    [StmtNode(Var(y, Pi())), StmtNode(Expr(Assign(Compound("*"), Name(y), Name(x)))), StmtNode(Return(Pi()))]
  }

  /** `function name(x) { var y = Math.PI; y *= x; return Math.PI; }` */
  function PiFunction(name: string, x: string, y: string): Node
  {
    Function(name, [x], PiBody(x, y))
  }

  /** The function hides nothing of the runtime. */
  lemma PiHygienic(name: string, x: string, y: string)
    requires Distinct(x, y) && name != "AD" && name != "Dual"
    ensures HygienicFunction(name, [x], PiBody(x, y))
  {
    var ss := [Var(y, Pi()), Expr(Assign(Compound("*"), Name(y), Name(x))), Return(Pi())];
    assert forall i | 0 <= i < 3 :: PiBody(x, y)[i] == StmtNode(ss[i]);
    StmtsKeepRuntime(ss, PiBody(x, y));
  }

  /** Read with value semantics, the function returns the constant π. */
  lemma PiMeaning(x: string, y: string, at: real)
    requires Distinct(x, y)
    ensures ValueRun(map[x := Variable(at)], PiBody(x, y)) == Some(ConstantDual(PI))
  {
    var body := PiBody(x, y);
    var env1 := map[x := Variable(at), y := ConstantDual(PI)];
    assert Interp(map[x := Variable(at)], Pi()) == Some(ConstantDual(PI));
    assert StmtOf(body[0]) == Some(Var(y, Pi()));
    assert ArithOf("*") == Some(MulOp);
    var env2 := env1[y := Mul(ConstantDual(PI), Variable(at))];
    assert ValueUpdate(env1, Assign(Compound("*"), Name(y), Name(x))) == Some(env2);
    assert body[1..][1..] == [StmtNode(Return(Pi()))];
    assert Interp(env2, Pi()) == Some(ConstantDual(PI));
    assert ValueRun(env2, body[1..][1..]) == Some(ConstantDual(PI));
  }

  /** `AD.PI`, what the rewrite makes of `Math.PI`. */
  function AdPi(): Node
  {
    Dot(Name("AD"), "PI")
  }

  /** The body the original rewrite produces. */
  function PiInPlaceBody(x: string, y: string): seq<Node>
  {
    [StmtNode(Var(y, AdPi())), StmtNode(Expr(ADCall("mulAssign", [Name(y), Name(x)]))), StmtNode(Return(AdPi()))]
  }

  /** `Math.PI` becomes `AD.PI`. */
  lemma PiRewrite(mode: Lowering)
    ensures Rewrite(mode, Pi()) == AdPi()
  {
  }

  /** `y *= x` becomes `AD.mulAssign(y, x)`. */
  lemma ScaleRewrite(x: string, y: string)
    requires Distinct(x, y)
    ensures Rewrite(InPlace, Assign(Compound("*"), Name(y), Name(x))) == ADCall("mulAssign", [Name(y), Name(x)])
  {
  }

  /** The original rewrite of the body. */
  lemma PiTransform(x: string, y: string)
    requires Distinct(x, y)
    ensures RewriteBody(InPlace, PiBody(x, y)) == PiInPlaceBody(x, y)
  {
    var rb := RewriteBody(InPlace, PiBody(x, y));
    PiRewrite(InPlace);
    ScaleRewrite(x, y);
    RewriteStmtNode(InPlace, Var(y, Pi()));
    RewriteStmtNode(InPlace, Expr(Assign(Compound("*"), Name(y), Name(x))));
    RewriteStmtNode(InPlace, Return(Pi()));
    assert rb[0] == StmtNode(Var(y, AdPi()));
    assert rb[1] == StmtNode(Expr(ADCall("mulAssign", [Name(y), Name(x)])));
    assert rb[2] == StmtNode(Return(AdPi()));
  }

  /** After `var y = AD.PI; AD.mulAssign(y, x);` the `AD.PI` object holds
      `π * x`: the constant is no longer intact. */
  lemma PiOverwritten(x: string, y: string, at: real)
    requires Distinct(x, y)
    ensures var m0 := Start([x], {}, at);
            && Bind(m0, y, AdPi()).Some?
            && var m1 := Bind(m0, y, AdPi()).value;
               && HeapUpdate(m1, ADCall("mulAssign", [Name(y), Name(x)])).Some?
               && var m2 := HeapUpdate(m1, ADCall("mulAssign", [Name(y), Name(x)])).value;
                  && m2.heap[ConstantIndex(PI)] == Mul(ConstantDual(PI), Variable(at))
                  && !Intact(m2)
  {
    var m0 := Start([x], {}, at);
    var p := ConstantIndex(PI);
    var m1 := m0.(env := m0.env[y := p]);
    assert Locate(m0, AdPi()) == Some(p);
    assert Bind(m0, y, AdPi()) == Some(m1);
    var call := ADCall("mulAssign", [Name(y), Name(x)]);
    var prod := Mul(ConstantDual(PI), Variable(at));
    assert AssignMethod("mulAssign") == Some(MulOp);
    assert HeapEval(m1, Name(x)) == Some(Variable(at));
    assert Arith(MulOp, m1.heap[p], Variable(at)) == Some(prod);
    var m2 := m1.(heap := m1.heap[p := prod]);
    assert Mutate(m1, call) == Some(m2);
    assert ConstantObjects(m2)[p] == prod != Constants[p];
  }

  /** Run on the heap, the body returns the overwritten constant. */
  lemma PiHeapRun(x: string, y: string, at: real)
    requires Distinct(x, y)
    ensures HeapRun(Start([x], {}, at), PiInPlaceBody(x, y)) == Some(Mul(ConstantDual(PI), Variable(at)))
  {
    PiOverwritten(x, y, at);
    var body := PiInPlaceBody(x, y);
    var m1 := Bind(Start([x], {}, at), y, AdPi()).value;
    var m2 := HeapUpdate(m1, ADCall("mulAssign", [Name(y), Name(x)])).value;
    StmtRoundTrip(Var(y, AdPi()));
    StmtRoundTrip(Expr(ADCall("mulAssign", [Name(y), Name(x)])));
    StmtRoundTrip(Return(AdPi()));
    assert body[1..][1..] == body[2..] == [StmtNode(Return(AdPi()))];
    assert HeapEval(m2, AdPi()) == Some(m2.heap[ConstantIndex(PI)]);
    assert HeapRun(m2, body[2..]) == Some(Mul(ConstantDual(PI), Variable(at)));
    assert HeapRun(m1, body[1..]) == HeapRun(m2, body[2..]);
  }

  /** `π * x` at `x = at` has gradient π. */
  lemma ScaledPiGradient(at: real)
    ensures Mul(ConstantDual(PI), Variable(at)).g == MathValue(PI)
  {
  }

  /** As written: the in-place lowering differentiates the constant π to
      π. */
  lemma InPlacePi(name: string, x: string, y: string, at: real)
    requires Distinct(x, y) && name != "AD" && name != "Dual"
    ensures Diff(InPlace, PiFunction(name, x, y), at) == Some(MathValue(PI))
  {
    PiHygienic(name, x, y);
    PiTransform(x, y);
    PiHeapRun(x, y, at);
    ScaledPiGradient(at);
    DiffOfHygienicRun(InPlace, name, [x], PiBody(x, y), at, MathValue(PI));
  }

  /** Corrected: the `Rebind` lowering differentiates it to 0. */
  lemma RebindPi(name: string, x: string, y: string, at: real)
    requires Distinct(x, y) && name != "AD" && name != "Dual"
    ensures Diff(Rebind, PiFunction(name, x, y), at) == Some(0.0)
  {
    PiHygienic(name, x, y);
    PiMeaning(x, y, at);
    assert [x] + [] == [x];
    DiffRebind(name, x, [], PiBody(x, y), at, ConstantDual(PI));
  }
}

=== FILE: cells.dfy ===
/** The in-place mutators of the `AD` object (`incr`, `decr` and the four
    `*Assign`). In the original a dual is a shared, mutable object; here it
    is a `Cell` whose two fields are overwritten. */
module DualCells {
  import opened DualNumbers

  class Cell {
    var v: real
    var g: real

    constructor (d: Dual)
      ensures v == d.v && g == d.g
    {
      v := d.v;
      g := d.g;
    }

    /** The dual currently held by the cell. */
    function Get(): Dual
      reads this
    {
      Dual(v, g)
    }
  }

  /** `++x.v`: the value goes up by one, the gradient is kept. */
  method Incr(x: Cell)
    modifies x
    ensures x.v == old(x.v) + 1.0 && x.g == old(x.g)
  {
    x.v := x.v + 1.0;
  }

  /** `--x.v`: the value goes down by one, the gradient is kept. */
  method Decr(x: Cell)
    modifies x
    ensures x.v == old(x.v) - 1.0 && x.g == old(x.g)
  {
    x.v := x.v - 1.0;
  }

  /** `x += y`: both fields of `x` become those of `Add` on the old values,
      also when `x` and `y` are the same cell; any other `y` is untouched. */
  method AddAssign(x: Cell, y: Cell)
    modifies x
    ensures x.Get() == Add(old(x.Get()), old(y.Get()))
    ensures y != x ==> y.Get() == old(y.Get())
  {
    var sum := Add(x.Get(), y.Get());
    x.v := sum.v;
    x.g := sum.g;
  }

  /** `x -= y`, as `AddAssign` with `Sub`. */
  method SubAssign(x: Cell, y: Cell)
    modifies x
    ensures x.Get() == Sub(old(x.Get()), old(y.Get()))
    ensures y != x ==> y.Get() == old(y.Get())
  {
    var diff := Sub(x.Get(), y.Get());
    x.v := diff.v;
    x.g := diff.g;
  }

  /** `x *= y`, as `AddAssign` with `Mul`. */
  method MulAssign(x: Cell, y: Cell)
    modifies x
    ensures x.Get() == Mul(old(x.Get()), old(y.Get()))
    ensures y != x ==> y.Get() == old(y.Get())
  {
    var prod := Mul(x.Get(), y.Get());
    x.v := prod.v;
    x.g := prod.g;
  }

  /** `x /= y`, as `AddAssign` with `Div`, for a divisor with non-zero value. */
  method DivAssign(x: Cell, y: Cell)
    requires y.v != 0.0
    modifies x
    ensures x.Get() == Div(old(x.Get()), old(y.Get()))
    ensures y != x ==> y.Get() == old(y.Get())
  {
    var quot := Div(x.Get(), y.Get());
    x.v := quot.v;
    x.g := quot.g;
  }
}

=== FILE: derivative.dfy ===
/** The reference the rewrite is measured against: the original program on
    plain numbers, and its derivative computed symbolically by the rules of
    calculus. Forward mode is correct when the dual a program computes
    carries the program's value and the value of its symbolic derivative. */
module Derivative {
  import opened Wrappers
  import opened DualNumbers
  import opened Syntax
  import opened Semantics

  /** `+ - * /` on plain numbers; `None` for a zero divisor. */
  function RealArith(op: ArithOp, a: real, b: real): Option<real>
  {
    match op
    case AddOp => Some(a + b)
    case SubOp => Some(a - b)
    case MulOp => Some(a * b)
    case DivOp => if b == 0.0 then None else Some(a / b)
  }

  function RealCompare(c: Comparison, a: real, b: real): bool
  {
    match c
    case GtOp => a > b
    case GteOp => a >= b
    case LtOp => a < b
    case LteOp => a <= b
    case EqOp => a == b
  }

  /** The original program on numbers, with its one parameter `x` bound to
      `at`. */
  function Value(x: string, at: real, t: Node): Option<real>
    decreases t
  {
    match t
    case Num(n) => Some(n)
    case Name(y) => if y == x && y != "Math" then Some(at) else None
    case Dot(o, p) =>
      if o == Name("Math") && ConstantNamed(p).Some? then Some(MathValue(ConstantNamed(p).value)) else None
    case UnaryPrefix(op, e) =>
      if op != "-" then None
      else (match Value(x, at, e)
        case None => None
        case Some(a) => Some(-a))
    case Binary(op, l, r) =>
      if ArithOf(op).None? then None
      else (match (Value(x, at, l), Value(x, at, r))
        case (Some(a), Some(b)) => RealArith(ArithOf(op).value, a, b)
        case _ => None)
    case Other(_, _, kids) =>
      if !IsConditional(t) then None
      else (match Test(x, at, kids[0])
        case None => None
        case Some(b) => if b then Value(x, at, kids[1]) else Value(x, at, kids[2]))
    case _ => None
  }

  /** A comparison of the original program on numbers. */
  function Test(x: string, at: real, t: Node): Option<bool>
    decreases t
  {
    if !t.Binary? || ComparisonOf(t.op).None? then None
    else match (Value(x, at, t.left), Value(x, at, t.right))
      case (Some(a), Some(b)) => Some(RealCompare(ComparisonOf(t.op).value, a, b))
      case _ => None
  }

  /** The symbolic derivative with respect to `x`: constants and other
      variables give 0, `x` gives 1, and sums, differences, products,
      quotients and conditionals follow the usual rules (a conditional is
      differentiated branch by branch under the same test). The result is
      again in the fragment. */
  function Deriv(x: string, t: Node): (r: Node)
    requires Supported(t)
    ensures Supported(r)
    decreases t
  {
    match t
    case Num(_) => Num(0.0)
    case Name(y) => Num(if y == x then 1.0 else 0.0)
    case Dot(_, _) => Num(0.0)
    case UnaryPrefix(_, e) => UnaryPrefix("-", Deriv(x, e))
    case Binary(op, l, r) =>
      var dl, dr := Deriv(x, l), Deriv(x, r);
      (match ArithOf(op).value
       case AddOp => Binary("+", dl, dr)
       case SubOp => Binary("-", dl, dr)
       case MulOp => Binary("+", Binary("*", l, dr), Binary("*", r, dl))
       case DivOp =>
         var num := Binary("-", Binary("*", r, dl), Binary("*", l, dr));
         assert Supported(Binary("*", r, dl)) && Supported(Binary("*", l, dr));
         assert Supported(num);
         Binary("/", num, Binary("*", r, r)))
    case Other(k, ls, kids) => Other(k, ls, [kids[0], Deriv(x, kids[1]), Deriv(x, kids[2])])
  }
}

=== FILE: dual.dfy ===
/** Dual numbers: a value tagged with its derivative with respect to the one
    independent variable, and the algebra that carries the derivative through
    a computation (the `Dual` constructor and the `AD` object of autodiff.js).
    Values are exact reals; the IEEE-754 special values of the original are
    kept out by preconditions. */
module DualNumbers {
  import opened Wrappers

  /** `v` is the value, `g` the gradient (derivative) of that value. */
  datatype Dual = Dual(v: real, g: real)

  /** `Dual(v)` with the gradient argument left out: a constant, whose
      derivative is zero. */
  function Constant(v: real): (r: Dual)
    ensures r.v == v && r.g == 0.0
  {
    Dual(v, 0.0)
  }

  /** The independent variable at the point `at`, as the harness binds it
      (`Dual(at, 1)`): d(at)/d(at) = 1. */
  function Variable(at: real): (r: Dual)
    ensures r.v == at && r.g == 1.0
  {
    Dual(at, 1.0)
  }

  function Add(x: Dual, y: Dual): (r: Dual)
    ensures r.v == x.v + y.v && r.g == x.g + y.g
  {
    Dual(x.v + y.v, x.g + y.g)
  }

  /** Negation; the result is the additive inverse of `x`. */
  function Neg(x: Dual): (r: Dual)
    ensures r.v == -x.v && r.g == -x.g
    ensures Add(x, r) == Constant(0.0)
  {
    Dual(-x.v, -x.g)
  }

  /** Subtraction; the result is the `d` with `Add(d, y) == x`. */
  function Sub(x: Dual, y: Dual): (r: Dual)
    ensures r.v == x.v - y.v && r.g == x.g - y.g
    ensures Add(r, y) == x
  {
    Dual(x.v - y.v, x.g - y.g)
  }

  /** Product; the gradient follows the product rule. */
  function Mul(x: Dual, y: Dual): (r: Dual)
    ensures r.v == x.v * y.v
    ensures r.g == x.v * y.g + y.v * x.g
  {
    Dual(x.v * y.v, x.v * y.g + y.v * x.g)
  }

  /** Quotient; the gradient follows the quotient rule, and the result is
      the `d` with `Mul(d, y) == x`. Division by a zero value (an IEEE
      infinity or NaN in the original) is excluded. */
  function Div(x: Dual, y: Dual): (r: Dual)
    requires y.v != 0.0
    ensures r.v == x.v / y.v
    ensures r.g == (y.v * x.g - x.v * y.g) / (y.v * y.v)
    ensures Mul(r, y) == x
  {
    var r := Dual(x.v / y.v, (y.v * x.g - x.v * y.g) / (y.v * y.v));
    QuotientTimesDivisor(x, y, r);
    r
  }

  /** The step behind `Div`'s inverse property, kept apart so that the
      non-linear arithmetic is done once. */
  lemma QuotientTimesDivisor(x: Dual, y: Dual, r: Dual)
    requires y.v != 0.0
    requires r == Dual(x.v / y.v, (y.v * x.g - x.v * y.g) / (y.v * y.v))
    ensures Mul(r, y) == x
  {
    var a := y.v;
    var n := a * x.g - x.v * y.g;
    SquareNonZero(a);
    assert r.v * a == x.v;
    assert a * (n / (a * a)) == n / a;
    assert x.v * y.g / a + n / a == (x.v * y.g + n) / a;
    assert x.v * y.g + n == a * x.g;
  }

  /** A product of non-zero factors, named `t`, is non-zero. Stated for a
      named product so that the fact survives where a square is known
      only through an equation. */
  lemma ProductNonZero(t: real, a: real, b: real)
    requires t == a * b
    requires a != 0.0 && b != 0.0
    ensures t != 0.0
  {
  }

  /** A non-zero number has a non-zero square. */
  lemma SquareNonZero(a: real)
    requires a != 0.0
    ensures a * a != 0.0
  {
  }

  /** Absolute value. Away from zero it is the identity or the negation,
      whichever keeps the value positive. At a zero value the original
      multiplies the gradient by NaN, and the constructor's `g || 0` then
      turns that NaN into 0: the result is the constant zero. */
  function Abs(x: Dual): (r: Dual)
    ensures r.v >= 0.0 && (r.v == x.v || r.v == -x.v)
    ensures x.v > 0.0 ==> r == x
    ensures x.v < 0.0 ==> r == Neg(x)
    ensures x.v == 0.0 ==> r == Constant(0.0)
  {
    if x.v > 0.0 then Dual(x.v, x.g * 1.0)
    else if x.v < 0.0 then Dual(-x.v, x.g * -1.0)
    else Constant(0.0)
  }

  /** `abs` is idempotent and even, and away from zero its gradient is the
      derivative `sign(v)` of |v| carried by the chain rule. */
  lemma AbsLaws(x: Dual)
    ensures Abs(Abs(x)) == Abs(x)
    ensures Abs(Neg(x)) == Abs(x)
    ensures x.v != 0.0 ==> Abs(x).g == (if x.v > 0.0 then x.g else -x.g)
  {
  }

  /** The comparisons look at the values only. */
  predicate Gt(x: Dual, y: Dual) { x.v > y.v }
  predicate Gte(x: Dual, y: Dual) { x.v >= y.v }
  predicate Lt(x: Dual, y: Dual) { x.v < y.v }
  predicate Lte(x: Dual, y: Dual) { x.v <= y.v }
  predicate Eq(x: Dual, y: Dual) { x.v == y.v }

  /** The four arithmetic operations that have a compound-assignment form. */
  datatype ArithOp = AddOp | SubOp | MulOp | DivOp

  /** The result of `op` on `x` and `y`, or `None` for a division by a zero
      value: the value is the arithmetic of the values, the gradient the sum,
      difference, product or quotient rule. */
  function Arith(op: ArithOp, x: Dual, y: Dual): (r: Option<Dual>)
    ensures r.None? <==> op == DivOp && y.v == 0.0
    ensures r.Some? ==> r.value.v == match op
                                     case AddOp => x.v + y.v
                                     case SubOp => x.v - y.v
                                     case MulOp => x.v * y.v
                                     case DivOp => x.v / y.v
    ensures r.Some? ==> r.value.g == match op
                                     case AddOp => x.g + y.g
                                     case SubOp => x.g - y.g
                                     case MulOp => x.v * y.g + y.v * x.g
                                     case DivOp => (y.v * x.g - x.v * y.g) / (y.v * y.v)
  {
    match op
    case AddOp => Some(Add(x, y))
    case SubOp => Some(Sub(x, y))
    case MulOp => Some(Mul(x, y))
    case DivOp => if y.v == 0.0 then None else Some(Div(x, y))
  }

  /** `++x` / `--x` on a dual: the value moves by one, the gradient stays. */
  function Step(x: Dual, up: bool): (r: Dual)
    ensures r == Add(x, Constant(if up then 1.0 else -1.0))
    ensures r.g == x.g
  {
    Dual(if up then x.v + 1.0 else x.v - 1.0, x.g)
  }

  /** The named constants of the `AD` object (`Math.PI` .. `Math.SQRT1_2`). */
  datatype MathConstant = PI | E | LOG2E | LN2 | LN10 | LOG10E | SQRT2 | SQRT1_2

  /** The property name of a constant on `Math` and on `AD`. */
  function ConstantName(c: MathConstant): string
  {
    match c
    case PI => "PI"
    case E => "E"
    case LOG2E => "LOG2E"
    case LN2 => "LN2"
    case LN10 => "LN10"
    case LOG10E => "LOG10E"
    case SQRT2 => "SQRT2"
    case SQRT1_2 => "SQRT1_2"
  }

  /** The property lookup `AD[name]` restricted to the constants: the inverse
      of `ConstantName`. */
  function ConstantNamed(name: string): (r: Option<MathConstant>)
    ensures r.Some? ==> ConstantName(r.value) == name
    ensures forall c :: ConstantName(c) == name ==> r == Some(c)
  {
    if name == "PI" then Some(PI)
    else if name == "E" then Some(E)
    else if name == "LOG2E" then Some(LOG2E)
    else if name == "LN2" then Some(LN2)
    else if name == "LN10" then Some(LN10)
    else if name == "LOG10E" then Some(LOG10E)
    else if name == "SQRT2" then Some(SQRT2)
    else if name == "SQRT1_2" then Some(SQRT1_2)
    else None
  }

  /** The value of a constant: the decimal that the float64 constant of
      `Math` prints as. */
  function MathValue(c: MathConstant): real
  {
    match c
    case PI => 3.141592653589793
    case E => 2.718281828459045
    case LOG2E => 1.4426950408889634
    case LN2 => 0.6931471805599453
    case LN10 => 2.302585092994046
    case LOG10E => 0.4342944819032518
    case SQRT2 => 1.4142135623730951
    case SQRT1_2 => 0.7071067811865476
  }

  /** `AD.PI` .. `AD.SQRT1_2`: each is `Dual(Math.X)`, so carries gradient 0. */
  function ConstantDual(c: MathConstant): (r: Dual)
    ensures r.v == MathValue(c) && r.g == 0.0
    ensures r.v > 0.0
  {
    Constant(MathValue(c))
  }

  /** Negation undoes itself, and subtraction is adding the negation. */
  lemma NegationLaws(x: Dual, y: Dual)
    ensures Neg(Neg(x)) == x
    ensures Sub(x, y) == Add(x, Neg(y))
    ensures Sub(Add(x, y), y) == x
  {
  }

  /** Addition and multiplication are commutative, and the product
      distributes over the sum: the dual numbers form a commutative ring. */
  lemma RingLaws(x: Dual, y: Dual, z: Dual)
    ensures Add(x, y) == Add(y, x)
    ensures Mul(x, y) == Mul(y, x)
    ensures Add(Add(x, y), z) == Add(x, Add(y, z))
    ensures Mul(Mul(x, y), z) == Mul(x, Mul(y, z))
    ensures Mul(x, Add(y, z)) == Add(Mul(x, y), Mul(x, z))
  {
    MulAssociates(x, y, z);
    MulDistributes(x, y, z);
  }

  lemma MulAssociates(x: Dual, y: Dual, z: Dual)
    ensures Mul(Mul(x, y), z) == Mul(x, Mul(y, z))
  {
    var a, b, c := x.v, y.v, z.v;
    var p, q := Mul(x, y), Mul(y, z);
    assert Mul(p, z).v == a * b * c == Mul(x, q).v;
    assert Mul(p, z).g == a * b * z.g + c * (a * y.g + b * x.g);
    assert Mul(x, q).g == a * (b * z.g + c * y.g) + b * c * x.g;
    assert a * b * z.g + c * (a * y.g + b * x.g) == a * (b * z.g + c * y.g) + b * c * x.g;
  }

  lemma MulDistributes(x: Dual, y: Dual, z: Dual)
    ensures Mul(x, Add(y, z)) == Add(Mul(x, y), Mul(x, z))
  {
    var s := Add(y, z);
    assert Mul(x, s).v == x.v * (y.v + z.v) == x.v * y.v + x.v * z.v;
    assert Mul(x, s).g == x.v * (y.g + z.g) + (y.v + z.v) * x.g;
    assert x.v * (y.g + z.g) + (y.v + z.v) * x.g == (x.v * y.g + y.v * x.g) + (x.v * z.g + z.v * x.g);
  }

  /** Multiplying by a constant scales both fields; dividing a product by
      its (non-zero) factor gives the other factor back. */
  lemma ScalingLaws(c: real, x: Dual, y: Dual)
    ensures Mul(Constant(c), x) == Dual(c * x.v, c * x.g)
    ensures y.v != 0.0 ==> Div(Mul(x, y), y) == x
  {
    if y.v != 0.0 {
      var p := Mul(x, y);
      var q := Div(p, y);
      assert q.v == x.v;
      assert q.g == x.g by {
        assert p.g == x.v * y.g + y.v * x.g;
        assert y.v * p.g - p.v * y.g == y.v * y.v * x.g;
      }
    }
  }

  /** The comparisons ignore both gradients. */
  lemma ComparisonsIgnoreGradient(x: Dual, y: Dual, gx: real, gy: real)
    ensures var x', y' := Dual(x.v, gx), Dual(y.v, gy);
            && Gt(x, y) == Gt(x', y') && Gte(x, y) == Gte(x', y')
            && Lt(x, y) == Lt(x', y') && Lte(x, y) == Lte(x', y')
            && Eq(x, y) == Eq(x', y')
  {
  }

  /** The comparisons are the total order of the values: `gt`/`gte` are the
      converses of `lt`/`lte`, `lte` is `lt` or `eq`, and exactly one of
      `lt`, `eq`, `gt` holds. */
  lemma ComparisonLaws(x: Dual, y: Dual)
    ensures Gt(x, y) == Lt(y, x) && Gte(x, y) == Lte(y, x)
    ensures Lte(x, y) <==> Lt(x, y) || Eq(x, y)
    ensures Lt(x, y) || Eq(x, y) || Gt(x, y)
    ensures !(Lt(x, y) && Eq(x, y)) && !(Lt(x, y) && Gt(x, y)) && !(Eq(x, y) && Gt(x, y))
  {
  }
}

=== FILE: forward.dfy ===
/** Forward mode measured against the reference: the dual reading of a
    program, with its parameter bound to `Dual(at, 1)`, carries the
    program's value and the value of its symbolic derivative. */
module Forward {
  import opened Wrappers
  import opened DualNumbers
  import opened Syntax
  import opened Semantics
  import opened Derivative

  /** The dual `d` carries the value `v` and the derivative's value `dv`. */
  predicate Carries(d: Dual, v: Option<real>, dv: Option<real>)
  {
    v.Some? && v.value == d.v && dv.Some? && dv.value == d.g
  }

  /** What forward mode promises of `t`: the dual reading with `x` bound to
      `Dual(at, 1)` exists exactly when the program's value does, and then
      holds that value and the value of the symbolic derivative. */
  predicate ForwardCorrect(x: string, at: real, t: Node)
    requires Supported(t)
  {
    var d := Interp(map[x := Variable(at)], t);
    && (d.Some? <==> Value(x, at, t).Some?)
    && (d.Some? ==> Carries(d.value, Value(x, at, t), Value(x, at, Deriv(x, t))))
  }

  /** `Value` of an arithmetic node whose operands have values. */
  lemma ValueOfArith(x: string, at: real, op: string, k: ArithOp, l: Node, r: Node)
    requires ArithOf(op) == Some(k)
    requires Value(x, at, l).Some? && Value(x, at, r).Some?
    ensures Value(x, at, Binary(op, l, r)) == RealArith(k, Value(x, at, l).value, Value(x, at, r).value)
  {
  }

  /** `Interp` and `Value` of an arithmetic node, by its operands. */
  lemma InterpOfArith(env: Env, x: string, at: real, op: string, l: Node, r: Node)
    requires ArithOf(op).Some?
    ensures Interp(env, l).Some? && Interp(env, r).Some? ==>
              Interp(env, Binary(op, l, r)) == Arith(ArithOf(op).value, Interp(env, l).value, Interp(env, r).value)
    ensures Interp(env, l).None? || Interp(env, r).None? ==> Interp(env, Binary(op, l, r)).None?
    ensures Value(x, at, l).None? || Value(x, at, r).None? ==> Value(x, at, Binary(op, l, r)).None?
  {
  }

  /** The value of a product node, from its operands' values. */
  lemma ValueOfProduct(x: string, at: real, l: Node, r: Node, a: real, b: real)
    requires Value(x, at, l).Some? && Value(x, at, l).value == a
    requires Value(x, at, r).Some? && Value(x, at, r).value == b
    ensures Value(x, at, Binary("*", l, r)).Some? && Value(x, at, Binary("*", l, r)).value == a * b
  {
    assert ArithOf("*") == Some(MulOp);
    ValueOfArith(x, at, "*", MulOp, l, r);
  }

  /** The value of a sum node, from its operands' values. */
  lemma ValueOfSum(x: string, at: real, l: Node, r: Node, a: real, b: real)
    requires Value(x, at, l).Some? && Value(x, at, l).value == a
    requires Value(x, at, r).Some? && Value(x, at, r).value == b
    ensures Value(x, at, Binary("+", l, r)).Some? && Value(x, at, Binary("+", l, r)).value == a + b
  {
    assert ArithOf("+") == Some(AddOp);
    ValueOfArith(x, at, "+", AddOp, l, r);
  }

  /** The value of a difference node, from its operands' values. */
  lemma ValueOfDifference(x: string, at: real, l: Node, r: Node, a: real, b: real)
    requires Value(x, at, l).Some? && Value(x, at, l).value == a
    requires Value(x, at, r).Some? && Value(x, at, r).value == b
    ensures Value(x, at, Binary("-", l, r)).Some? && Value(x, at, Binary("-", l, r)).value == a - b
  {
    assert ArithOf("-") == Some(SubOp);
    ValueOfArith(x, at, "-", SubOp, l, r);
  }

  /** The value of a quotient node, from its operands' values, the divisor
      being non-zero. */
  lemma ValueOfQuotient(x: string, at: real, l: Node, r: Node, a: real, b: real)
    requires Value(x, at, l).Some? && Value(x, at, l).value == a
    requires Value(x, at, r).Some? && Value(x, at, r).value == b
    requires b != 0.0
    ensures Value(x, at, Binary("/", l, r)).Some? && Value(x, at, Binary("/", l, r)).value == a / b
  {
    assert ArithOf("/") == Some(DivOp);
    ValueOfArith(x, at, "/", DivOp, l, r);
  }

  /** The value of the product rule's tree, from the values `av`, `bv` of
      the operands and `ag`, `bg` of their derivatives. */
  lemma ProductValues(x: string, at: real, l: Node, r: Node, dl: Node, dr: Node, av: real, ag: real, bv: real, bg: real)
    requires Value(x, at, l).Some? && Value(x, at, l).value == av
    requires Value(x, at, dl).Some? && Value(x, at, dl).value == ag
    requires Value(x, at, r).Some? && Value(x, at, r).value == bv
    requires Value(x, at, dr).Some? && Value(x, at, dr).value == bg
    ensures Value(x, at, Binary("*", l, r)).Some? && Value(x, at, Binary("*", l, r)).value == av * bv
    ensures var d := Value(x, at, Binary("+", Binary("*", l, dr), Binary("*", r, dl)));
            d.Some? && d.value == av * bg + bv * ag
  {
    ValueOfProduct(x, at, l, r, av, bv);
    ValueOfProduct(x, at, l, dr, av, bg);
    ValueOfProduct(x, at, r, dl, bv, ag);
    ValueOfSum(x, at, Binary("*", l, dr), Binary("*", r, dl), av * bg, bv * ag);
  }

  /** The value of the quotient rule's numerator. */
  lemma NumeratorValue(x: string, at: real, l: Node, r: Node, dl: Node, dr: Node, av: real, ag: real, bv: real, bg: real)
    requires Value(x, at, l).Some? && Value(x, at, l).value == av
    requires Value(x, at, dl).Some? && Value(x, at, dl).value == ag
    requires Value(x, at, r).Some? && Value(x, at, r).value == bv
    requires Value(x, at, dr).Some? && Value(x, at, dr).value == bg
    ensures var d := Value(x, at, Binary("-", Binary("*", r, dl), Binary("*", l, dr)));
            d.Some? && d.value == bv * ag - av * bg
  {
    ValueOfProduct(x, at, r, dl, bv, ag);
    ValueOfProduct(x, at, l, dr, av, bg);
    ValueOfDifference(x, at, Binary("*", r, dl), Binary("*", l, dr), bv * ag, av * bg);
  }

  /** The value of a quotient by the square of `r`, whose value is
      non-zero. */
  lemma ValueOverSquare(x: string, at: real, num: Node, r: Node, n: real, bv: real)
    requires Value(x, at, num).Some? && Value(x, at, num).value == n
    requires Value(x, at, r).Some? && Value(x, at, r).value == bv
    requires bv != 0.0
    ensures var d := Value(x, at, Binary("/", num, Binary("*", r, r)));
            d.Some? && d.value == n / (bv * bv)
  {
    var den := Binary("*", r, r);
    ValueOfProduct(x, at, r, r, bv, bv);
    ProductNonZero(Value(x, at, den).value, bv, bv);
    ValueOfQuotient(x, at, num, den, n, Value(x, at, den).value);
  }

  /** The value of the quotient rule's tree, the divisor's value being
      non-zero. */
  lemma QuotientValues(x: string, at: real, l: Node, r: Node, dl: Node, dr: Node, av: real, ag: real, bv: real, bg: real)
    requires Value(x, at, l).Some? && Value(x, at, l).value == av
    requires Value(x, at, dl).Some? && Value(x, at, dl).value == ag
    requires Value(x, at, r).Some? && Value(x, at, r).value == bv
    requires Value(x, at, dr).Some? && Value(x, at, dr).value == bg
    requires bv != 0.0
    ensures Value(x, at, Binary("/", l, r)).Some? && Value(x, at, Binary("/", l, r)).value == av / bv
    ensures var d := Value(x, at, Binary("/", Binary("-", Binary("*", r, dl), Binary("*", l, dr)), Binary("*", r, r)));
            d.Some? && d.value == (bv * ag - av * bg) / (bv * bv)
  {
    ValueOfQuotient(x, at, l, r, av, bv);
    NumeratorValue(x, at, l, r, dl, dr, av, ag, bv, bg);
    ValueOverSquare(x, at, Binary("-", Binary("*", r, dl), Binary("*", l, dr)), r, bv * ag - av * bg, bv);
  }

  /** `Mul` carries the values of the product and of its derivative. */
  lemma MulCarries(a: Dual, b: Dual, vt: Option<real>, vdt: Option<real>)
    requires vt.Some? && vt.value == a.v * b.v
    requires vdt.Some? && vdt.value == a.v * b.g + b.v * a.g
    ensures Carries(Mul(a, b), vt, vdt)
  {
  }

  /** The product rule's tree for `l * r`. */
  lemma DerivOfProduct(x: string, l: Node, r: Node)
    requires Supported(l) && Supported(r)
    ensures Deriv(x, Binary("*", l, r)) == Binary("+", Binary("*", l, Deriv(x, r)), Binary("*", r, Deriv(x, l)))
  {
  }

  /** The product rule on two operands whose readings are known: if the
      duals `a` and `b` carry the values of `l`, `r` and of their
      derivatives `dl`, `dr`, then `Mul(a, b)` carries the value of `l * r`
      and of `l * dr + r * dl`. */
  lemma ProductRule(x: string, at: real, l: Node, r: Node, dl: Node, dr: Node, a: Dual, b: Dual)
    requires Carries(a, Value(x, at, l), Value(x, at, dl))
    requires Carries(b, Value(x, at, r), Value(x, at, dr))
    ensures Carries(Mul(a, b), Value(x, at, Binary("*", l, r)),
                    Value(x, at, Binary("+", Binary("*", l, dr), Binary("*", r, dl))))
  {
    ProductValues(x, at, l, r, dl, dr, a.v, a.g, b.v, b.g);
    MulCarries(a, b, Value(x, at, Binary("*", l, r)), Value(x, at, Binary("+", Binary("*", l, dr), Binary("*", r, dl))));
  }

  /** Forward mode is correct for `l * r` when it is for `l` and `r`. */
  lemma ProductStep(x: string, at: real, l: Node, r: Node)
    requires Supported(l) && Supported(r)
    requires ForwardCorrect(x, at, l) && ForwardCorrect(x, at, r)
    ensures ForwardCorrect(x, at, Binary("*", l, r))
  {
    var env := map[x := Variable(at)];
    InterpOfArith(env, x, at, "*", l, r);
    DerivOfProduct(x, l, r);
    if Interp(env, l).Some? && Interp(env, r).Some? {
      var a, b := Interp(env, l).value, Interp(env, r).value;
      assert Interp(env, Binary("*", l, r)) == Some(Mul(a, b));
      ProductRule(x, at, l, r, Deriv(x, l), Deriv(x, r), a, b);
    }
  }

  /** `Div` carries the values of the quotient and of its derivative. */
  lemma DivCarries(a: Dual, b: Dual, vt: Option<real>, vdt: Option<real>)
    requires b.v != 0.0
    requires vt.Some? && vt.value == a.v / b.v
    requires vdt.Some? && vdt.value == (b.v * a.g - a.v * b.g) / (b.v * b.v)
    ensures Carries(Div(a, b), vt, vdt)
  {
  }

  /** The quotient rule's tree for `l / r`. */
  lemma DerivOfQuotient(x: string, l: Node, r: Node)
    requires Supported(l) && Supported(r)
    ensures Deriv(x, Binary("/", l, r))
            == Binary("/", Binary("-", Binary("*", r, Deriv(x, l)), Binary("*", l, Deriv(x, r))), Binary("*", r, r))
  {
  }

  /** The quotient rule on two operands whose readings are known, the
      divisor's value being non-zero. */
  lemma QuotientRule(x: string, at: real, l: Node, r: Node, dl: Node, dr: Node, a: Dual, b: Dual)
    requires Carries(a, Value(x, at, l), Value(x, at, dl))
    requires Carries(b, Value(x, at, r), Value(x, at, dr))
    requires b.v != 0.0
    ensures Carries(Div(a, b), Value(x, at, Binary("/", l, r)),
                    Value(x, at, Binary("/", Binary("-", Binary("*", r, dl), Binary("*", l, dr)), Binary("*", r, r))))
  {
    QuotientValues(x, at, l, r, dl, dr, a.v, a.g, b.v, b.g);
    DivCarries(a, b, Value(x, at, Binary("/", l, r)),
               Value(x, at, Binary("/", Binary("-", Binary("*", r, dl), Binary("*", l, dr)), Binary("*", r, r))));
  }

  /** Forward mode is correct for `l / r` when it is for `l` and `r`;
      both sides fail for a zero divisor. */
  lemma QuotientStep(x: string, at: real, l: Node, r: Node)
    requires Supported(l) && Supported(r)
    requires ForwardCorrect(x, at, l) && ForwardCorrect(x, at, r)
    ensures ForwardCorrect(x, at, Binary("/", l, r))
  {
    var env := map[x := Variable(at)];
    InterpOfArith(env, x, at, "/", l, r);
    DerivOfQuotient(x, l, r);
    if Interp(env, l).Some? && Interp(env, r).Some? {
      var a, b := Interp(env, l).value, Interp(env, r).value;
      assert ArithOf("/") == Some(DivOp);
      ValueOfArith(x, at, "/", DivOp, l, r);
      if b.v != 0.0 {
        assert Interp(env, Binary("/", l, r)) == Some(Div(a, b));
        QuotientRule(x, at, l, r, Deriv(x, l), Deriv(x, r), a, b);
      }
    }
  }

  /** Forward mode is correct for `c ? a : b` when the test reads the same
      on duals and on numbers and both branches are correct. */
  lemma ConditionalStep(x: string, at: real, t: Node)
    requires Supported(t) && t.Other?
    requires InterpTest(map[x := Variable(at)], t.children[0]) == Test(x, at, t.children[0])
    requires ForwardCorrect(x, at, t.children[1]) && ForwardCorrect(x, at, t.children[2])
    ensures ForwardCorrect(x, at, t)
  {
    var d := Deriv(x, t);
    assert IsConditional(d) && d.children[0] == t.children[0];
  }

  /** Forward-mode correctness: on every fragment expression, the dual
      reading with the parameter bound to `Dual(at, 1)` yields the
      expression's value and its derivative at `at`. */
  lemma {:induction false} ForwardMode(x: string, at: real, t: Node)
    requires Supported(t)
    ensures ForwardCorrect(x, at, t)
    decreases t, 1
  {
    match t
    case Num(_) =>
    case Name(_) =>
    case Dot(_, _) =>
    case UnaryPrefix(_, e) => ForwardMode(x, at, e);
    case Binary(op, l, r) =>
      ForwardMode(x, at, l);
      ForwardMode(x, at, r);
      if op == "*" { ProductStep(x, at, l, r); }
      else if op == "/" { QuotientStep(x, at, l, r); }
    case Other(_, _, kids) =>
      ForwardTest(x, at, kids[0]);
      ForwardMode(x, at, kids[1]);
      ForwardMode(x, at, kids[2]);
      ConditionalStep(x, at, t);
  }

  /** Comparisons read on duals decide as they do on the numbers: the
      gradients play no part. */
  lemma {:induction false} ForwardTest(x: string, at: real, t: Node)
    requires SupportedTest(t)
    ensures InterpTest(map[x := Variable(at)], t) == Test(x, at, t)
    decreases t, 0
  {
    ForwardMode(x, at, t.left);
    ForwardMode(x, at, t.right);
  }
}

=== FILE: inplace.dfy ===
/** When the original's in-place lowering is right. The `AD` mutators
    overwrite the object a variable names, which is harmless as long as no
    other variable and no `AD` constant is that object. A variable comes to
    share an existing object when it is bound to an expression that
    evaluates to one: another variable, a `Math` constant (rewritten to the
    single `AD` constant object), or a conditional whose taken branch is
    one of these. On bodies that never bind such an expression the
    original lowering means what the function means. */
module InPlaceFacts {
  import opened Wrappers
  import opened DualNumbers
  import opened Syntax
  import opened Rewriting
  import opened Semantics
  import opened Programs
  import opened DiffFacts

  /** No variable names an `AD` constant, and no two variables name the
      same object. */
  predicate Unshared(m: Machine)
  {
    && (forall y | y in m.env :: |Constants| <= m.env[y])
    && (forall y, z | y in m.env && z in m.env && y != z :: m.env[y] != m.env[z])
  }

  /** The original expressions whose rewrite can evaluate to an object
      that already exists. */
  predicate MayShare(e: Node)
    decreases e
  {
    match e
    case Name(_) => true
    case Dot(_, _) => true
    case Other(_, _, kids) => IsConditional(e) && (MayShare(kids[1]) || MayShare(kids[2]))
    case _ => false
  }

  /** `var y = e` or the expression statement `y = e` where `e` may
      evaluate to an existing object: after it `y` may name that object. */
  predicate Copies(s: Stmt)
  {
    match s
    case Var(_, e) => MayShare(e)
    case Expr(e) => e.Assign? && e.aop.Plain? && MayShare(e.rvalue)
    case Return(_) => false
  }

  /** No statement of the body copies an object reference. */
  predicate CopyFree(body: seq<Node>)
  {
    forall i | 0 <= i < |body| :: StmtOf(body[i]).Some? ==> !Copies(StmtOf(body[i]).value)
  }

  /** A body without copies has none from its second statement on. */
  lemma CopyFreeTail(body: seq<Node>)
    requires body != [] && CopyFree(body)
    ensures CopyFree(body[1..])
  {
    forall i | 0 <= i < |body[1..]|
      ensures StmtOf(body[1..][i]).Some? ==> !Copies(StmtOf(body[1..][i]).value)
    {
      assert body[1..][i] == body[i + 1];
    }
  }

  /** The rewrite of an expression that cannot share evaluates, if at all,
      to a new object. */
  lemma {:induction false} NotLocated(mode: Lowering, m: Machine, e: Node)
    requires !MayShare(e)
    ensures Locate(m, Rewrite(mode, e)).None?
    decreases e
  {
    if IsConditional(e) {
      var t := Rewrite(mode, e);
      assert IsConditional(t) && t.children[1] == Rewrite(mode, e.children[1]) && t.children[2] == Rewrite(mode, e.children[2]);
      NotLocated(mode, m, e.children[1]);
      NotLocated(mode, m, e.children[2]);
    }
  }

  /** The start machine shares nothing. */
  lemma StartUnshared(ps: seq<string>, hidden: set<string>, at: real)
    ensures Unshared(Start(ps, hidden, at))
  {
  }

  /** Overwriting an object past the constants leaves them alone. */
  lemma OverwriteKeepsConstants(m: Machine, i: nat, d: Dual)
    requires |Constants| <= i < |m.heap|
    ensures ConstantObjects(m.(heap := m.heap[i := d])) == ConstantObjects(m)
  {
    assert m.heap[i := d][..|Constants|] == m.heap[..|Constants|];
  }

  /** Overwriting an object only `y` names changes what `y` denotes and
      nothing else. */
  lemma OverwriteView(m: Machine, y: string, d: Dual)
    requires WellFormed(m) && y in m.env
    requires forall z | z in m.env && z != y :: m.env[z] != m.env[y]
    ensures View(m.(heap := m.heap[m.env[y] := d])) == View(m)[y := d]
  {
    var m' := m.(heap := m.heap[m.env[y] := d]);
    assert forall z | z in m.env && z != y :: m'.heap[m.env[z]] == m.heap[m.env[z]];
  }

  /** Overwriting the object of `y` changes what `y` denotes and nothing
      else, when `y` shares its object with no other variable and no
      constant. */
  lemma ViewOverwrite(m: Machine, y: string, d: Dual)
    requires WellFormed(m) && Unshared(m) && y in m.env
    ensures var m' := m.(heap := m.heap[m.env[y] := d]);
            && WellFormed(m') && Unshared(m') && View(m') == View(m)[y := d]
            && ConstantObjects(m') == ConstantObjects(m)
  {
    OverwriteView(m, y, d);
    OverwriteKeepsConstants(m, m.env[y], d);
  }

  /** Binding the rewrite of an expression that cannot share puts the
      result in a new object, so no object becomes shared. */
  lemma BindKeepsUnshared(mode: Lowering, m: Machine, y: string, e: Node)
    requires WellFormed(m) && Unshared(m) && !MayShare(e)
    requires Bind(m, y, Rewrite(mode, e)).Some?
    ensures Unshared(Bind(m, y, Rewrite(mode, e)).value)
  {
    NotLocated(mode, m, e);
  }

  /** `y op= e` lowered in place overwrites `y`'s object with `y op e`. */
  lemma CompoundInPlace(m: Machine, y: string, op: string, e: Node, r: Dual)
    requires WellFormed(m) && Intact(m) && m.hidden == {} && Hygienic(View(m))
    requires y in m.env && y != "Math" && ArithOf(op).Some?
    requires Interp(View(m), Binary(op, Name(y), e)) == Some(r)
    ensures HeapUpdate(m, Rewrite(InPlace, Assign(Compound(op), Name(y), e))) == Some(m.(heap := m.heap[m.env[y] := r]))
  {
    AssignTableAgrees(op);
    var d := Interp(View(m), e).value;
    RewritePreservesMeaning(InPlace, View(m), e);
    HeapEvalIntact(m, Rewrite(InPlace, e));
    var call := ADCall(AssignMethods[op], [Name(y), Rewrite(InPlace, e)]);
    assert Rewrite(InPlace, Assign(Compound(op), Name(y), e)) == call;
    assert HeapUpdate(m, call) == Mutate(m, call);
    MutateAssignCall(m, AssignMethods[op], Name(y), Rewrite(InPlace, e), m.env[y], d, r);
  }

  /** `y++` and `y--` lowered in place step `y`'s object. */
  lemma StepInPlace(m: Machine, s: Node)
    requires WellFormed(m) && m.hidden == {} && Hygienic(View(m))
    requires (s.UnaryPrefix? || s.UnaryPostfix?) && (s.op == "++" || s.op == "--")
    requires s.expr.Name? && s.expr.id != "Math" && s.expr.id in m.env
    ensures var i := m.env[s.expr.id];
            HeapUpdate(m, Rewrite(InPlace, s)) == Some(m.(heap := m.heap[i := Step(m.heap[i], s.op == "++")]))
  {
    assert Rewrite(InPlace, s) == ADCall(UnaryMethods[s.op], [s.expr]);
  }

  /** An expression statement other than a copy, lowered in place, updates
      the heap to the variables' new values, shares no object, leaves the
      constants alone and, assigning neither `AD` nor `Dual`, keeps the
      runtime in view. */
  lemma UpdateInPlace(m: Machine, s: Node, env': Env)
    requires WellFormed(m) && Intact(m) && Unshared(m) && m.hidden == {} && Hygienic(View(m))
    requires ValueUpdate(View(m), s) == Some(env')
    requires !(s.Assign? && s.aop.Plain? && MayShare(s.rvalue))
    requires !Binds(Expr(s), "AD") && !Binds(Expr(s), "Dual")
    ensures HeapUpdate(m, Rewrite(InPlace, s)).Some?
    ensures var m' := HeapUpdate(m, Rewrite(InPlace, s)).value;
            WellFormed(m') && Intact(m') && Unshared(m') && m'.hidden == {} && Hygienic(View(m')) && View(m') == env'
  {
    if s.Assign? {
      var y := s.lvalue.id;
      var d := Interp(View(m), s.rvalue).value;
      if s.aop.Plain? {
        assert Rewrite(InPlace, s) == Assign(Plain, Name(y), Rewrite(InPlace, s.rvalue));
        BindSound(InPlace, m, y, s.rvalue, d);
        BindKeepsUnshared(InPlace, m, y, s.rvalue);
      } else {
        CompoundInPlace(m, y, s.aop.op, s.rvalue, env'[y]);
        ViewOverwrite(m, y, env'[y]);
      }
    } else {
      var y := s.expr.id;
      StepInPlace(m, s);
      ViewOverwrite(m, y, Step(View(m)[y], s.op == "++"));
    }
  }

  /** `var y = e` lowered in place: the heap run moves on in step with
      the value run, and the invariants hold. */
  lemma VarInPlace(m: Machine, body: seq<Node>, r: Dual, y: string, e: Node) returns (m': Machine)
    requires WellFormed(m) && Intact(m) && Unshared(m) && m.hidden == {} && Hygienic(View(m))
    requires body != [] && StmtOf(body[0]) == Some(Var(y, e)) && !MayShare(e) && y != "AD" && y != "Dual"
    requires ValueRun(View(m), body) == Some(r)
    ensures WellFormed(m') && Intact(m') && Unshared(m') && m'.hidden == {} && Hygienic(View(m'))
    ensures ValueRun(View(m'), body[1..]) == Some(r)
    ensures HeapRun(m, RewriteBody(InPlace, body)) == HeapRun(m', RewriteBody(InPlace, body[1..]))
  {
    var rb := RewriteBody(InPlace, body);
    RewriteStmt(InPlace, Var(y, e));
    assert StmtOf(rb[0]) == Some(Var(y, Rewrite(InPlace, e)));
    RewriteBodyTail(InPlace, body);
    var d := Interp(View(m), e).value;
    BindSound(InPlace, m, y, e, d);
    BindKeepsUnshared(InPlace, m, y, e);
    m' := Bind(m, y, Rewrite(InPlace, e)).value;
  }

  /** An expression statement lowered in place: the same. */
  lemma ExprInPlace(m: Machine, body: seq<Node>, r: Dual, e: Node) returns (m': Machine)
    requires WellFormed(m) && Intact(m) && Unshared(m) && m.hidden == {} && Hygienic(View(m))
    requires body != [] && StmtOf(body[0]) == Some(Expr(e)) && !Copies(Expr(e))
    requires !Binds(Expr(e), "AD") && !Binds(Expr(e), "Dual")
    requires ValueRun(View(m), body) == Some(r)
    ensures WellFormed(m') && Intact(m') && Unshared(m') && m'.hidden == {} && Hygienic(View(m'))
    ensures ValueRun(View(m'), body[1..]) == Some(r)
    ensures HeapRun(m, RewriteBody(InPlace, body)) == HeapRun(m', RewriteBody(InPlace, body[1..]))
  {
    var rb := RewriteBody(InPlace, body);
    RewriteStmt(InPlace, Expr(e));
    assert StmtOf(rb[0]) == Some(Expr(Rewrite(InPlace, e)));
    RewriteBodyTail(InPlace, body);
    var env' := ValueUpdate(View(m), e).value;
    UpdateInPlace(m, e, env');
    m' := HeapUpdate(m, Rewrite(InPlace, e)).value;
  }

  /** The original lowering keeps the meaning of every body without
      copies: from a heap where no object is shared and the constants are
      intact, the rewritten body returns the dual the original body
      returns with value semantics, as long as nothing hides the
      runtime. */
  lemma {:induction false} InPlaceSound(m: Machine, body: seq<Node>, r: Dual)
    requires WellFormed(m) && Intact(m) && Unshared(m) && CopyFree(body)
    requires m.hidden == {} && Hygienic(View(m)) && KeepsRuntime(body)
    requires ValueRun(View(m), body) == Some(r)
    ensures HeapRun(m, RewriteBody(InPlace, body)) == Some(r)
    decreases |body|
  {
    var s := StmtOf(body[0]).value;
    if s.Return? {
      var rb := RewriteBody(InPlace, body);
      RewriteStmt(InPlace, s);
      assert StmtOf(rb[0]) == Some(Return(Rewrite(InPlace, s.e)));
      RewritePreservesMeaning(InPlace, View(m), s.e);
      HeapEvalIntact(m, Rewrite(InPlace, s.e));
    } else {
      var m';
      if s.Var? {
        VarKeepsRuntime(s.y, s.e);
        m' := VarInPlace(m, body, r, s.y, s.e);
      } else {
        m' := ExprInPlace(m, body, r, s.e);
      }
      CopyFreeTail(body);
      KeepsRuntimeTail(body);
      InPlaceSound(m', body[1..], r);
    }
  }

  /** On a function without copies that hides nothing of the runtime and
      repeats no name of its first parameter, the original `diff` returns
      the gradient of what the function means, the same as the corrected
      lowering. */
  lemma DiffInPlace(name: string, x: string, rest: seq<string>, body: seq<Node>, at: real, r: Dual)
    requires CopyFree(body) && HygienicFunction(name, [x] + rest, body) && x !in rest
    requires ValueRun(map[x := Variable(at)], body) == Some(r)
    ensures Diff(InPlace, Function(name, [x] + rest, body), at) == Some(r.g)
    ensures Diff(InPlace, Function(name, [x] + rest, body), at) == Diff(Rebind, Function(name, [x] + rest, body), at)
  {
    RewriteFunction(InPlace, name, [x] + rest, body);
    HiddenNone(name, [x] + rest, body);
    ViewStart(x, rest, {}, at);
    StartUnshared([x] + rest, {}, at);
    InPlaceSound(Start([x] + rest, {}, at), body, r);
    DiffRebind(name, x, rest, body, at, r);
  }
}

=== FILE: programs.dfy ===
/** Function bodies and the `diff` harness of autodiff.js. The rewritten
    function is run with its first parameter bound to a fresh `Dual(at, 1)`
    and the gradient of its result is read. Variables name dual OBJECTS:
    `var y = x` makes `y` share `x`'s object, and the `AD` mutators
    overwrite an object in place, so every variable sharing it sees the
    change. */
module Programs {
  import opened Wrappers
  import opened DualNumbers
  import opened Syntax
  import opened Rewriting
  import opened Semantics
  import opened Derivative
  import opened Forward

  /** The statements a body is made of: `var y = e`, the expression
      statement `e;`, and `return e`. */
  datatype Stmt = Var(y: string, e: Node) | Expr(e: Node) | Return(e: Node)

  /** A statement as a node of the tree. */
  function StmtNode(s: Stmt): (r: Node)
    ensures r.Other? && |r.children| == 1 && r.children[0] == s.e
  {
    match s
    case Var(y, e) => Other("var", [y], [e])
    case Expr(e) => Other("stat", [], [e])
    case Return(e) => Other("return", [], [e])
  }

  /** The statement a node of a body stands for, if any. */
  function StmtOf(t: Node): (r: Option<Stmt>)
    ensures r.Some? ==> StmtNode(r.value) == t
  {
    if !(t.Other? && |t.children| == 1) then None
    else if t.kind == "var" && |t.labels| == 1 then Some(Var(t.labels[0], t.children[0]))
    else if t.kind == "stat" && t.labels == [] then Some(Expr(t.children[0]))
    else if t.kind == "return" && t.labels == [] then Some(Return(t.children[0]))
    else None
  }

  lemma StmtRoundTrip(s: Stmt)
    ensures StmtOf(StmtNode(s)) == Some(s)
  {
  }

  /** The rewrite keeps a statement's kind and rewrites its expression. */
  lemma RewriteStmt(mode: Lowering, s: Stmt)
    ensures StmtOf(Rewrite(mode, StmtNode(s))) == Some(s.(e := Rewrite(mode, s.e)))
  {
    var t := StmtNode(s);
    assert Rewrite(mode, t).children == [Rewrite(mode, s.e)];
  }

  /** The same, as a statement node. */
  lemma RewriteStmtNode(mode: Lowering, s: Stmt)
    ensures Rewrite(mode, StmtNode(s)) == StmtNode(s.(e := Rewrite(mode, s.e)))
  {
    RewriteStmt(mode, s);
  }

  /** The mutator methods `AD.addAssign` .. `AD.divAssign`. */
  function AssignMethod(m: string): Option<ArithOp>
  {
    if m == "addAssign" then Some(AddOp)
    else if m == "subAssign" then Some(SubOp)
    else if m == "mulAssign" then Some(MulOp)
    else if m == "divAssign" then Some(DivOp)
    else None
  }

  /** The compound-assignment table names the mutator of the operator's
      own arithmetic. */
  lemma AssignTableAgrees(op: string)
    ensures op in AssignMethods <==> ArithOf(op).Some?
    ensures op in AssignMethods ==> AssignMethod(AssignMethods[op]) == ArithOf(op)
  {
  }

  /** --- The original program, with value semantics --- */

  /** The original body read with operators overloaded on duals, each
      variable holding a VALUE: `y op= e` and `y++`, `y--` change `y` alone.
      This is what the differentiated function means. */
  function ValueRun(env: Env, body: seq<Node>): Option<Dual>
    decreases |body|
  {
    if body == [] || StmtOf(body[0]).None? then None
    else match StmtOf(body[0]).value
      case Return(e) => Interp(env, e)
      case Var(y, e) =>
        if y == "Math" then None
        else (match Interp(env, e)
          case None => None
          case Some(d) => ValueRun(env[y := d], body[1..]))
      case Expr(e) =>
        (match ValueUpdate(env, e)
          case None => None
          case Some(env') => ValueRun(env', body[1..]))
  }

  /** The expression statements `y = e`, `y op= e` (for `+ - * /`) and
      `y++`, `++y`, `y--`, `--y` on a variable `y`. */
  function ValueUpdate(env: Env, s: Node): Option<Env>
  {
    if s.Assign? && s.lvalue.Name? && s.lvalue.id != "Math" then
      var y := s.lvalue.id;
      match Interp(env, s.rvalue)
      case None => None
      case Some(d) =>
        if s.aop.Plain? then Some(env[y := d])
        else if ArithOf(s.aop.op).None? || y !in env then None
        else (match Arith(ArithOf(s.aop.op).value, env[y], d)
          case None => None
          case Some(r) => Some(env[y := r]))
    else if (s.UnaryPrefix? || s.UnaryPostfix?) && (s.op == "++" || s.op == "--")
            && s.expr.Name? && s.expr.id != "Math" && s.expr.id in env then
      Some(env[s.expr.id := Step(env[s.expr.id], s.op == "++")])
    else None
  }

  /** --- The rewritten program, against the runtime's objects --- */

  /** Each variable names an object of the heap. Objects `0` to `7` are the
      constant duals of the `AD` object, which is shared by every run.
      `hidden` holds the names among `AD` and `Dual` that the running
      function declares without giving them a dual. */
  datatype Machine = Machine(env: map<string, nat>, heap: seq<Dual>, hidden: set<string>)

  predicate WellFormed(m: Machine)
  {
    |Constants| <= |m.heap| && forall y | y in m.env :: m.env[y] < |m.heap|
  }

  /** What the variables currently denote. */
  function View(m: Machine): Env
  {
    map y | y in m.env && m.env[y] < |m.heap| :: m.heap[m.env[y]]
  }

  /** What the constant objects currently hold. */
  function ConstantObjects(m: Machine): seq<Dual>
  {
    if |m.heap| < |Constants| then m.heap else m.heap[..|Constants|]
  }

  /** The constant objects still hold the constants. */
  predicate Intact(m: Machine)
  {
    ConstantObjects(m) == Constants
  }

  /** The runtime as the running function sees it. */
  function RuntimeOf(m: Machine): Runtime
  {
    Runtime(ConstantObjects(m), m.hidden)
  }

  /** A rewritten expression evaluated against the machine. */
  function HeapEval(m: Machine, e: Node): Option<Dual>
  {
    EvalIn(RuntimeOf(m), View(m), e)
  }

  /** The object a rewritten expression evaluates to when that object
      already exists: a variable's, an `AD` constant's, or that of the
      branch a conditional takes. `None` when the expression makes a new
      object or fails. */
  function Locate(m: Machine, e: Node): Option<nat>
    decreases e
  {
    match e
    case Name(z) => if z in m.env then Some(m.env[z]) else None
    case Dot(o, p) =>
      if o == Name("AD") && Sees(RuntimeOf(m), View(m), "AD") && ConstantNamed(p).Some?
      then Some(ConstantIndex(ConstantNamed(p).value)) else None
    case Other(_, _, kids) =>
      if !IsConditional(e) then None
      else (match EvalTestIn(RuntimeOf(m), View(m), kids[0])
        case None => None
        case Some(b) => if b then Locate(m, kids[1]) else Locate(m, kids[2]))
    case _ => None
  }

  /** A located object exists, and evaluating the expression yields what
      it holds. */
  lemma {:induction false} LocateSound(m: Machine, e: Node)
    requires WellFormed(m) && Locate(m, e).Some?
    ensures Locate(m, e).value < |m.heap| && HeapEval(m, e) == Some(m.heap[Locate(m, e).value])
    decreases e
  {
    if e.Other? {
      var b := EvalTestIn(RuntimeOf(m), View(m), e.children[0]).value;
      LocateSound(m, if b then e.children[1] else e.children[2]);
    }
  }

  /** Pointing `y` at an existing object. */
  lemma ViewShare(m: Machine, y: string, i: nat)
    requires WellFormed(m) && i < |m.heap|
    ensures WellFormed(m.(env := m.env[y := i]))
    ensures View(m.(env := m.env[y := i])) == View(m)[y := m.heap[i]]
  {
  }

  /** Pointing `y` at a new object holding `d`. */
  lemma ViewFresh(m: Machine, y: string, d: Dual)
    requires WellFormed(m)
    ensures WellFormed(m.(env := m.env[y := |m.heap|], heap := m.heap + [d]))
    ensures View(m.(env := m.env[y := |m.heap|], heap := m.heap + [d])) == View(m)[y := d]
    ensures ConstantObjects(m.(env := m.env[y := |m.heap|], heap := m.heap + [d])) == ConstantObjects(m)
  {
    assert (m.heap + [d])[..|Constants|] == m.heap[..|Constants|];
  }

  /** `y = e` or `var y = e`. When `e` evaluates to an existing object, `y`
      names that object from now on; otherwise `y` names a new object that
      holds the value of `e`. */
  function Bind(m: Machine, y: string, e: Node): (r: Option<Machine>)
    requires WellFormed(m)
    ensures r.Some? <==> HeapEval(m, e).Some?
    ensures r.Some? ==> && WellFormed(r.value)
                        && |m.heap| <= |r.value.heap| && r.value.heap[..|m.heap|] == m.heap
                        && ConstantObjects(r.value) == ConstantObjects(m)
                        && View(r.value) == View(m)[y := HeapEval(m, e).value]
                        && y in r.value.env && (r.value.env[y] < |m.heap| <==> Locate(m, e).Some?)
                        && r.value.hidden == m.hidden
  {
    match Locate(m, e)
    case Some(i) =>
      LocateSound(m, e);
      ViewShare(m, y, i);
      Some(m.(env := m.env[y := i]))
    case None =>
      (match HeapEval(m, e)
        case None => None
        case Some(d) =>
          ViewFresh(m, y, d);
          Some(m.(env := m.env[y := |m.heap|], heap := m.heap + [d])))
  }

  /** A mutator call statement `AD.incr(t)`, `AD.decr(t)` or
      `AD.addAssign(t, e)` .. `AD.divAssign(t, e)`: the object `t` denotes
      is overwritten in place, whichever variables or constants share it. */
  function Mutate(m: Machine, s: Node): (r: Option<Machine>)
    requires WellFormed(m)
    ensures r.Some? ==> && s.Call? && s.callee.Dot? && s.callee.obj == Name("AD") && Sees(RuntimeOf(m), View(m), "AD")
                        && |s.args| > 0 && Locate(m, s.args[0]).Some? && Locate(m, s.args[0]).value < |m.heap|
    ensures r.Some? ==> && WellFormed(r.value) && r.value.env == m.env && r.value.hidden == m.hidden
                        && |r.value.heap| == |m.heap|
                        && forall j | 0 <= j < |m.heap| && j != Locate(m, s.args[0]).value :: r.value.heap[j] == m.heap[j]
    ensures r.Some? ==>
              var i, name := Locate(m, s.args[0]).value, s.callee.prop;
              if |s.args| == 1 then (name == "incr" || name == "decr") && r.value.heap[i] == Step(m.heap[i], name == "incr")
              else && |s.args| == 2 && AssignMethod(name).Some? && HeapEval(m, s.args[1]).Some?
                   && Arith(AssignMethod(name).value, m.heap[i], HeapEval(m, s.args[1]).value) == Some(r.value.heap[i])
  {
    if !(s.Call? && s.callee.Dot? && s.callee.obj == Name("AD") && Sees(RuntimeOf(m), View(m), "AD") && |s.args| > 0) then None
    else match Locate(m, s.args[0])
      case None => None
      case Some(i) =>
        LocateSound(m, s.args[0]);
        var name := s.callee.prop;
        if |s.args| == 1 && (name == "incr" || name == "decr") then
          Some(m.(heap := m.heap[i := Step(m.heap[i], name == "incr")]))
        else if |s.args| == 2 && AssignMethod(name).Some? then
          (match HeapEval(m, s.args[1])
            case None => None
            case Some(d) =>
              (match Arith(AssignMethod(name).value, m.heap[i], d)
                case None => None
                case Some(r) => Some(m.(heap := m.heap[i := r]))))
        else None
  }

  /** A mutator call whose target and operand evaluate overwrites the
      target's object with the operation's result. */
  lemma MutateAssignCall(m: Machine, name: string, t: Node, a: Node, i: nat, d: Dual, r: Dual)
    requires WellFormed(m) && Sees(RuntimeOf(m), View(m), "AD") && AssignMethod(name).Some?
    requires Locate(m, t) == Some(i) && i < |m.heap| && HeapEval(m, a) == Some(d)
    requires Arith(AssignMethod(name).value, m.heap[i], d) == Some(r)
    ensures Mutate(m, ADCall(name, [t, a])) == Some(m.(heap := m.heap[i := r]))
  {
  }

  /** One expression statement of a rewritten body. Objects are overwritten
      or added, never removed. */
  function HeapUpdate(m: Machine, s: Node): (r: Option<Machine>)
    requires WellFormed(m)
    ensures r.Some? ==> WellFormed(r.value) && |m.heap| <= |r.value.heap| && r.value.hidden == m.hidden
  {
    if s.Assign? && s.aop.Plain? && s.lvalue.Name? then Bind(m, s.lvalue.id, s.rvalue)
    else Mutate(m, s)
  }

  /** A rewritten body run against the heap, up to its `return`. */
  function HeapRun(m: Machine, body: seq<Node>): Option<Dual>
    requires WellFormed(m)
    decreases |body|
  {
    if body == [] || StmtOf(body[0]).None? then None
    else match StmtOf(body[0]).value
      case Return(e) => HeapEval(m, e)
      case Var(y, e) =>
        (match Bind(m, y, e)
          case None => None
          case Some(m') => HeapRun(m', body[1..]))
      case Expr(e) =>
        (match HeapUpdate(m, e)
          case None => None
          case Some(m') => HeapRun(m', body[1..]))
  }

  /** The machine a call `(f)(at)` starts from: the constants as created,
      and the first parameter naming a fresh `Dual(at, 1)`. A later
      parameter of the same name stands for the missing second argument
      and hides it, and `hidden` lists what the function hides of the
      runtime. */
  function Start(ps: seq<string>, hidden: set<string>, at: real): (m: Machine)
    ensures WellFormed(m) && Intact(m) && m.hidden == hidden
    ensures |ps| > 0 && ps[0] !in ps[1..] ==> View(m) == map[ps[0] := Variable(at)]
    ensures !(|ps| > 0 && ps[0] !in ps[1..]) ==> View(m) == map[]
  {
    var env := if |ps| > 0 && ps[0] !in ps[1..] then map[ps[0] := |Constants|] else map[];
    Machine(env, Constants + [Variable(at)], hidden)
  }

  /** `t` declares `n` with `var`, at any depth of its statements (a nested
      function has a scope of its own). */
  predicate Declares(t: Node, n: string)
    decreases t
  {
    match t
    case Other(kind, labels, kids) => (kind == "var" && n in labels) || exists i | 0 <= i < |kids| :: Declares(kids[i], n)
    case _ => false
  }

  /** A statement declares its own `var` and what its expression
      declares. */
  lemma StmtDeclares(s: Stmt, n: string)
    ensures Declares(StmtNode(s), n) <==> (s.Var? && s.y == n) || Declares(s.e, n)
  {
    assert StmtNode(s).children == [s.e];
  }

  /** A body of statements keeps the runtime in view when none of them
      declares or assigns `AD` or `Dual`. */
  lemma StmtsKeepRuntime(ss: seq<Stmt>, body: seq<Node>)
    requires |body| == |ss| && forall i | 0 <= i < |ss| :: body[i] == StmtNode(ss[i])
    requires forall i | 0 <= i < |ss| :: !Binds(ss[i], "AD") && !Binds(ss[i], "Dual")
    requires forall i | 0 <= i < |ss| :: !Declares(ss[i].e, "AD") && !Declares(ss[i].e, "Dual")
    ensures KeepsRuntime(body)
  {
    forall i | 0 <= i < |body|
      ensures !Declares(body[i], "AD") && !Declares(body[i], "Dual")
      ensures StmtOf(body[i]) == Some(ss[i])
    {
      StmtDeclares(ss[i], "AD");
      StmtDeclares(ss[i], "Dual");
      StmtRoundTrip(ss[i]);
    }
  }

  /** The names among `AD` and `Dual` that a function declares: its own
      name, a parameter, or a `var` of its body, hoisted to its top. Until
      such a name is given a dual it hides the global of that name. */
  function Hidden(name: string, ps: seq<string>, body: seq<Node>): set<string>
  {
    set n | n in {"AD", "Dual"} && (n == name || n in ps || exists i | 0 <= i < |body| :: Declares(body[i], n))
  }

  /** The statement assigns the variable `n`. */
  predicate Binds(s: Stmt, n: string)
  {
    match s
    case Var(y, _) => y == n
    case Expr(e) => (e.Assign? && e.lvalue == Name(n)) || ((e.UnaryPrefix? || e.UnaryPostfix?) && e.expr == Name(n))
    case Return(_) => false
  }

  /** No statement of the body declares or assigns `AD` or `Dual`. */
  predicate KeepsRuntime(body: seq<Node>)
  {
    forall i | 0 <= i < |body| ::
      && !Declares(body[i], "AD") && !Declares(body[i], "Dual")
      && (StmtOf(body[i]).Some? ==> !Binds(StmtOf(body[i]).value, "AD") && !Binds(StmtOf(body[i]).value, "Dual"))
  }

  /** Neither the function's name nor a parameter is `AD` or `Dual`. */
  predicate HygienicHeader(name: string, ps: seq<string>)
  {
    name != "AD" && name != "Dual" && "AD" !in ps && "Dual" !in ps
  }

  /** A function that leaves the globals `AD` and `Dual` visible
      throughout: neither its name, nor a parameter, nor its body hides
      them. */
  predicate HygienicFunction(name: string, ps: seq<string>, body: seq<Node>)
  {
    HygienicHeader(name, ps) && KeepsRuntime(body)
  }

  /** `diff(f, at)`: rewrite the function's tree, call it at `Dual(at, 1)`
      and read the gradient of the result. `InPlace` is the original;
      `Rebind` the corrected lowering. */
  function Diff(mode: Lowering, f: Node, at: real): (r: Option<real>)
    ensures !f.Function? ==> r == None
  {
    if !f.Function? then None
    else
      match Rewrite(mode, f)
      case Function(_, ps, body) =>
        (match HeapRun(Start(ps, Hidden(f.fname, f.params, f.body), at), body)
          case None => None
          case Some(d) => Some(d.g))
      case _ => None
  }
}

module DiffFacts {
  import opened Wrappers
  import opened DualNumbers
  import opened Syntax
  import opened Rewriting
  import opened Semantics
  import opened Derivative
  import opened Forward
  import opened Programs

  /** The rewrite applied to each statement of a body. */
  function RewriteBody(mode: Lowering, body: seq<Node>): (r: seq<Node>)
    ensures |r| == |body| && forall i | 0 <= i < |body| :: r[i] == Rewrite(mode, body[i])
  {
    seq(|body|, i requires 0 <= i < |body| => Rewrite(mode, body[i]))
  }

  lemma RewriteFunction(mode: Lowering, name: string, ps: seq<string>, body: seq<Node>)
    ensures Rewrite(mode, Function(name, ps, body)) == Function(name, ps, RewriteBody(mode, body))
  {
  }

  /** `diff` reads the gradient off the rewritten body's run. */
  lemma DiffOfRun(mode: Lowering, f: Node, at: real, g: real)
    requires f.Function?
    requires var d := HeapRun(Start(f.params, Hidden(f.fname, f.params, f.body), at), RewriteBody(mode, f.body));
             d.Some? && d.value.g == g
    ensures Diff(mode, f, at) == Some(g)
  {
    RewriteFunction(mode, f.fname, f.params, f.body);
  }

  /** The same for a function that hides nothing of the runtime. */
  lemma DiffOfHygienicRun(mode: Lowering, name: string, ps: seq<string>, body: seq<Node>, at: real, g: real)
    requires HygienicFunction(name, ps, body)
    requires var d := HeapRun(Start(ps, {}, at), RewriteBody(mode, body)); d.Some? && d.value.g == g
    ensures Diff(mode, Function(name, ps, body), at) == Some(g)
  {
    HiddenNone(name, ps, body);
    DiffOfRun(mode, Function(name, ps, body), at, g);
  }

  /** `diff` fails when the rewritten body's run fails. */
  lemma DiffFails(mode: Lowering, f: Node, at: real)
    requires f.Function?
    requires HeapRun(Start(f.params, Hidden(f.fname, f.params, f.body), at), RewriteBody(mode, f.body)).None?
    ensures Diff(mode, f, at) == None
  {
    RewriteFunction(mode, f.fname, f.params, f.body);
  }

  lemma RewriteBodyTail(mode: Lowering, body: seq<Node>)
    requires body != []
    ensures RewriteBody(mode, body)[1..] == RewriteBody(mode, body[1..])
  {
  }

  /** The start machine denotes the parameter's `Dual(at, 1)` alone. */
  lemma ViewStart(x: string, rest: seq<string>, hidden: set<string>, at: real)
    requires x !in rest
    ensures View(Start([x] + rest, hidden, at)) == map[x := Variable(at)]
  {
    assert ([x] + rest)[1..] == rest;
  }

  /** A hygienic function hides nothing of the runtime. */
  lemma HiddenNone(name: string, ps: seq<string>, body: seq<Node>)
    requires HygienicFunction(name, ps, body)
    ensures Hidden(name, ps, body) == {}
  {
  }

  /** While the constants are intact, the machine evaluates as the runtime
      with its constants as created. */
  lemma HeapEvalIntact(m: Machine, e: Node)
    requires Intact(m) && m.hidden == {}
    ensures HeapEval(m, e) == Eval(View(m), e)
  {
  }

  /** Binding the rewrite of an expression gives the variable the value
      the original expression has, and leaves the constants alone. */
  lemma BindSound(mode: Lowering, m: Machine, y: string, e: Node, d: Dual)
    requires WellFormed(m) && Intact(m) && m.hidden == {} && Hygienic(View(m))
    requires Interp(View(m), e) == Some(d)
    ensures Bind(m, y, Rewrite(mode, e)).Some?
    ensures WellFormed(Bind(m, y, Rewrite(mode, e)).value) && Intact(Bind(m, y, Rewrite(mode, e)).value)
    ensures View(Bind(m, y, Rewrite(mode, e)).value) == View(m)[y := d]
  {
    RewritePreservesMeaning(mode, View(m), e);
    HeapEvalIntact(m, Rewrite(mode, e));
  }

  /** `y op= e` lowered with `Rebind` is the binding `y = y op e`. */
  lemma CompoundSound(m: Machine, y: string, op: string, e: Node, r: Dual)
    requires WellFormed(m) && Intact(m) && m.hidden == {} && Hygienic(View(m))
    requires y in View(m) && ArithOf(op).Some?
    requires Interp(View(m), Binary(op, Name(y), e)) == Some(r)
    ensures HeapUpdate(m, Rewrite(Rebind, Assign(Compound(op), Name(y), e))).Some?
    ensures var m' := HeapUpdate(m, Rewrite(Rebind, Assign(Compound(op), Name(y), e))).value;
            WellFormed(m') && Intact(m') && View(m') == View(m)[y := r]
  {
    AssignTableAgrees(op);
    var b := Binary(op, Name(y), e);
    assert Rewrite(Rebind, Assign(Compound(op), Name(y), e)) == Assign(Plain, Name(y), Rewrite(Rebind, b));
    BindSound(Rebind, m, y, b, r);
  }

  /** The binary node `y + 1` or `y - 1` that `y++` or `y--` stands for. */
  function StepNode(y: string, up: bool): Node
  {
    Binary(if up then "+" else "-", Name(y), Num(1.0))
  }

  /** `y + 1` and `y - 1` move the value by one and keep the gradient. */
  lemma StepNodeMeaning(env: Env, y: string, up: bool)
    requires y != "Math" && y in env
    ensures Interp(env, StepNode(y, up)) == Some(Step(env[y], up))
  {
  }

  /** `y++` and `y--` lowered with `Rebind` are `y = y + 1` and
      `y = y - 1`. */
  lemma StepLowering(s: Node)
    requires (s.UnaryPrefix? || s.UnaryPostfix?) && (s.op == "++" || s.op == "--")
    requires s.expr.Name? && s.expr.id != "Math"
    ensures Rewrite(Rebind, s) == Assign(Plain, s.expr, Rewrite(Rebind, StepNode(s.expr.id, s.op == "++")))
  {
  }

  /** `y++` and `y--` lowered with `Rebind` update `y` alone. */
  lemma StepSound(m: Machine, s: Node)
    requires WellFormed(m) && Intact(m) && m.hidden == {} && Hygienic(View(m))
    requires (s.UnaryPrefix? || s.UnaryPostfix?) && (s.op == "++" || s.op == "--")
    requires s.expr.Name? && s.expr.id != "Math" && s.expr.id in View(m)
    ensures HeapUpdate(m, Rewrite(Rebind, s)).Some?
    ensures var m' := HeapUpdate(m, Rewrite(Rebind, s)).value;
            WellFormed(m') && Intact(m') && View(m') == View(m)[s.expr.id := Step(View(m)[s.expr.id], s.op == "++")]
  {
    var y, up := s.expr.id, s.op == "++";
    StepNodeMeaning(View(m), y, up);
    StepLowering(s);
    assert HeapUpdate(m, Rewrite(Rebind, s)) == Bind(m, y, Rewrite(Rebind, StepNode(y, up)));
    BindSound(Rebind, m, y, StepNode(y, up), Step(View(m)[y], up));
  }

  /** An expression statement of the original, lowered with `Rebind`,
      updates the heap to the variables' new values; one that assigns
      neither `AD` nor `Dual` keeps the runtime in view. */
  lemma UpdateSound(m: Machine, s: Node, env': Env)
    requires WellFormed(m) && Intact(m) && m.hidden == {} && Hygienic(View(m))
    requires ValueUpdate(View(m), s) == Some(env')
    requires !Binds(Expr(s), "AD") && !Binds(Expr(s), "Dual")
    ensures HeapUpdate(m, Rewrite(Rebind, s)).Some?
    ensures var m' := HeapUpdate(m, Rewrite(Rebind, s)).value;
            WellFormed(m') && Intact(m') && m'.hidden == {} && Hygienic(View(m')) && View(m') == env'
  {
    if s.Assign? {
      var y := s.lvalue.id;
      var d := Interp(View(m), s.rvalue).value;
      if s.aop.Plain? {
        assert Rewrite(Rebind, s) == Assign(Plain, Name(y), Rewrite(Rebind, s.rvalue));
        BindSound(Rebind, m, y, s.rvalue, d);
      } else {
        CompoundSound(m, y, s.aop.op, s.rvalue, env'[y]);
      }
    } else {
      StepSound(m, s);
    }
  }

  /** A body that keeps the runtime in view keeps it from its second
      statement on. */
  lemma KeepsRuntimeTail(body: seq<Node>)
    requires body != [] && KeepsRuntime(body)
    ensures KeepsRuntime(body[1..])
  {
    forall i | 0 <= i < |body[1..]|
      ensures !Declares(body[1..][i], "AD") && !Declares(body[1..][i], "Dual")
      ensures StmtOf(body[1..][i]).Some? ==> !Binds(StmtOf(body[1..][i]).value, "AD") && !Binds(StmtOf(body[1..][i]).value, "Dual")
    {
      assert body[1..][i] == body[i + 1];
    }
  }

  /** A `var` statement that declares neither `AD` nor `Dual` binds
      neither. */
  lemma VarKeepsRuntime(y: string, e: Node)
    requires !Declares(StmtNode(Var(y, e)), "AD") && !Declares(StmtNode(Var(y, e)), "Dual")
    ensures y != "AD" && y != "Dual"
  {
    assert StmtNode(Var(y, e)).labels == [y];
  }

  /** The corrected lowering keeps the original's meaning: whenever the
      original body, read with value semantics, returns `r`, the rewritten
      body returns `r` from the heap as well, however its variables came
      to share objects, as long as the constants start out intact and
      nothing hides the runtime. */
  lemma {:induction false} RebindSound(m: Machine, body: seq<Node>, r: Dual)
    requires WellFormed(m) && Intact(m) && m.hidden == {} && Hygienic(View(m)) && KeepsRuntime(body)
    requires ValueRun(View(m), body) == Some(r)
    ensures HeapRun(m, RewriteBody(Rebind, body)) == Some(r)
    decreases |body|
  {
    var rb := RewriteBody(Rebind, body);
    var s := StmtOf(body[0]).value;
    RewriteStmt(Rebind, s);
    assert StmtOf(rb[0]) == Some(s.(e := Rewrite(Rebind, s.e)));
    KeepsRuntimeTail(body);
    match s
    case Return(e) =>
      RewritePreservesMeaning(Rebind, View(m), e);
      HeapEvalIntact(m, Rewrite(Rebind, e));
    case Var(y, e) =>
      var d := Interp(View(m), e).value;
      VarKeepsRuntime(y, e);
      BindSound(Rebind, m, y, e, d);
      RewriteBodyTail(Rebind, body);
      RebindSound(Bind(m, y, Rewrite(Rebind, e)).value, body[1..], r);
    case Expr(e) =>
      var env' := ValueUpdate(View(m), e).value;
      UpdateSound(m, e, env');
      RewriteBodyTail(Rebind, body);
      RebindSound(HeapUpdate(m, Rewrite(Rebind, e)).value, body[1..], r);
  }

  /** With the corrected lowering, `diff` returns the gradient of what the
      function means, for a function that hides nothing of the runtime
      and repeats no name of its first parameter. */
  lemma DiffRebind(name: string, x: string, rest: seq<string>, body: seq<Node>, at: real, r: Dual)
    requires HygienicFunction(name, [x] + rest, body) && x !in rest
    requires ValueRun(map[x := Variable(at)], body) == Some(r)
    ensures Diff(Rebind, Function(name, [x] + rest, body), at) == Some(r.g)
  {
    RewriteFunction(Rebind, name, [x] + rest, body);
    HiddenNone(name, [x] + rest, body);
    ViewStart(x, rest, {}, at);
    RebindSound(Start([x] + rest, {}, at), body, r);
  }

  /** An expression of the fragment declares nothing. */
  lemma {:induction false} SupportedDeclaresNothing(e: Node, n: string)
    requires Supported(e)
    ensures !Declares(e, n)
    decreases e
  {
    if e.Other? {
      SupportedDeclaresNothing(e.children[1], n);
      SupportedDeclaresNothing(e.children[2], n);
      assert forall i | 0 <= i < 3 :: !Declares(e.children[i], n);
    }
  }

  /** A function that only returns an expression of the fragment hides
      nothing of the runtime unless its name or a parameter does. */
  lemma ReturnHygienic(name: string, ps: seq<string>, e: Node)
    requires Supported(e) && HygienicHeader(name, ps)
    ensures HygienicFunction(name, ps, [StmtNode(Return(e))])
  {
    SupportedDeclaresNothing(e, "AD");
    SupportedDeclaresNothing(e, "Dual");
    StmtsKeepRuntime([Return(e)], [StmtNode(Return(e))]);
  }

  /** End to end: for a function returning an expression of the fragment,
      `diff` yields the value at `at` of the expression's symbolic
      derivative, and fails exactly where the expression has no value. */
  lemma DiffOfExpression(mode: Lowering, name: string, x: string, rest: seq<string>, e: Node, at: real)
    requires Supported(e) && HygienicHeader(name, [x] + rest) && x !in rest
    ensures var f := Function(name, [x] + rest, [StmtNode(Return(e))]);
            Diff(mode, f, at) == if Value(x, at, e).Some? then Value(x, at, Deriv(x, e)) else None
  {
    var env := map[x := Variable(at)];
    var body := [StmtNode(Return(e))];
    RewriteFunction(mode, name, [x] + rest, body);
    RewriteStmt(mode, Return(e));
    ReturnHygienic(name, [x] + rest, e);
    HiddenNone(name, [x] + rest, body);
    ViewStart(x, rest, {}, at);
    RewriteSound(mode, env, e);
    ForwardMode(x, at, e);
    HeapEvalIntact(Start([x] + rest, {}, at), Rewrite(mode, e));
    assert HeapRun(Start([x] + rest, {}, at), RewriteBody(mode, body)) == Eval(env, Rewrite(mode, e));
  }
}

=== FILE: rewriting.dfy ===
/** The syntax-tree rewrite `transform` of autodiff.js: numeric literals are
    lifted to `Dual(n)`, `Math` becomes `AD`, operators found in the three
    tables become `AD` calls, and every other node is rebuilt with its
    children rewritten. */
module Rewriting {
  import opened Syntax

  /** How compound assignment and `++`/`--` are lowered. `InPlace` is the
      original: a call of the `AD` mutator, which overwrites the operand's
      dual object. `Rebind` assigns the pure result back to the operand
      instead (`y *= e` becomes `y = AD.mul(y, e)`). */
  datatype Lowering = InPlace | Rebind

  /** The rule for a unary node whose operand is already rewritten. */
  function LowerUnary(mode: Lowering, prefix: bool, op: string, e: Node): Node
  {
    if op in UnaryMethods then
      if mode == Rebind && op != "-" then
        Assign(Plain, e, ADCall(if op == "++" then "add" else "sub", [e, Literal(1.0)]))
      else
        ADCall(UnaryMethods[op], [e])
    else if prefix then UnaryPrefix(op, e)
    else UnaryPostfix(op, e)
  }

  /** The rule for an assignment node whose sides are already rewritten. */
  function LowerAssign(mode: Lowering, aop: AssignOp, l: Node, r: Node): Node
  {
    if aop.Compound? && aop.op in AssignMethods then
      if mode == InPlace then ADCall(AssignMethods[aop.op], [l, r])
      else Assign(Plain, l, ADCall(BinaryMethods[aop.op], [l, r]))
    else
      Assign(aop, l, r)
  }

  /** One walk over the tree. A literal's `Dual(n)` wrapper is returned
      as is, not walked again. */
  function Rewrite(mode: Lowering, t: Node): Node
    decreases t
  {
    match t
    case Num(n) => Literal(n)
    case Name(id) => if id == "Math" then Name("AD") else Name(id)
    case UnaryPrefix(op, e) => LowerUnary(mode, true, op, Rewrite(mode, e))
    case UnaryPostfix(op, e) => LowerUnary(mode, false, op, Rewrite(mode, e))
    case Binary(op, l, r) =>
      if op in BinaryMethods then ADCall(BinaryMethods[op], [Rewrite(mode, l), Rewrite(mode, r)])
      else Binary(op, Rewrite(mode, l), Rewrite(mode, r))
    case Assign(aop, l, r) => LowerAssign(mode, aop, Rewrite(mode, l), Rewrite(mode, r))
    case Call(f, args) => Call(Rewrite(mode, f), seq(|args|, i requires 0 <= i < |args| => Rewrite(mode, args[i])))
    case Dot(o, p) => Dot(Rewrite(mode, o), p)
    case Function(name, ps, body) => Function(name, ps, seq(|body|, i requires 0 <= i < |body| => Rewrite(mode, body[i])))
    case Other(k, ls, kids) => Other(k, ls, seq(|kids|, i requires 0 <= i < |kids| => Rewrite(mode, kids[i])))
  }

  /** `transform` as the original defines it. */
  function Transform(t: Node): Node
  {
    Rewrite(InPlace, t)
  }

  /** The rule applied to each node kind. */
  lemma TransformRules(t: Node)
    ensures t.Num? ==> Transform(t) == Call(Name("Dual"), [Num(t.n)])
    ensures t.Name? ==> Transform(t) == Name(if t.id == "Math" then "AD" else t.id)
    ensures t.Binary? && t.op in BinaryMethods ==>
              Transform(t) == ADCall(BinaryMethods[t.op], [Transform(t.left), Transform(t.right)])
    ensures t.Binary? && t.op !in BinaryMethods ==>
              Transform(t) == Binary(t.op, Transform(t.left), Transform(t.right))
    ensures (t.UnaryPrefix? || t.UnaryPostfix?) && t.op in UnaryMethods ==>
              Transform(t) == ADCall(UnaryMethods[t.op], [Transform(t.expr)])
    ensures t.UnaryPrefix? && t.op !in UnaryMethods ==> Transform(t) == UnaryPrefix(t.op, Transform(t.expr))
    ensures t.UnaryPostfix? && t.op !in UnaryMethods ==> Transform(t) == UnaryPostfix(t.op, Transform(t.expr))
    ensures t.Assign? && t.aop.Compound? && t.aop.op in AssignMethods ==>
              Transform(t) == ADCall(AssignMethods[t.aop.op], [Transform(t.lvalue), Transform(t.rvalue)])
    ensures t.Assign? && !(t.aop.Compound? && t.aop.op in AssignMethods) ==>
              Transform(t) == Assign(t.aop, Transform(t.lvalue), Transform(t.rvalue))
    ensures t.Call? ==> Transform(t).Call? && Transform(t).callee == Transform(t.callee)
                        && |Transform(t).args| == |t.args|
                        && forall i | 0 <= i < |t.args| :: Transform(t).args[i] == Transform(t.args[i])
    ensures t.Dot? ==> Transform(t) == Dot(Transform(t.obj), t.prop)
    ensures t.Function? ==> Transform(t).Function? && Transform(t).fname == t.fname && Transform(t).params == t.params
                            && |Transform(t).body| == |t.body|
                            && forall i | 0 <= i < |t.body| :: Transform(t).body[i] == Transform(t.body[i])
    ensures t.Other? ==> Transform(t).Other? && Transform(t).kind == t.kind && Transform(t).labels == t.labels
                         && |Transform(t).children| == |t.children|
                         && forall i | 0 <= i < |t.children| :: Transform(t).children[i] == Transform(t.children[i])
  {
  }

  /** The operator tables: `==` and `===` both mean `eq`, unary minus,
      increment and decrement map to `neg`, `incr`, `decr`, and the four
      arithmetic compound assignments to the four mutators. */
  lemma OperatorTables()
    ensures BinaryMethods["=="] == BinaryMethods["==="] == "eq"
    ensures UnaryMethods["-"] == "neg" && UnaryMethods["++"] == "incr" && UnaryMethods["--"] == "decr"
    ensures AssignMethods.Keys == {"+", "-", "*", "/"}
    ensures forall op :: op in AssignMethods ==> op in BinaryMethods && AssignMethods[op] == BinaryMethods[op] + "Assign"
  {
  }

  /** Every numeric literal of `t` sits inside a `Dual(n)` wrapper: no bare
      number is left. */
  predicate LiteralsWrapped(t: Node)
    decreases t
  {
    if IsLiteral(t) then true
    else match t
      case Num(_) => false
      case Name(_) => true
      case UnaryPrefix(_, e) => LiteralsWrapped(e)
      case UnaryPostfix(_, e) => LiteralsWrapped(e)
      case Binary(_, l, r) => LiteralsWrapped(l) && LiteralsWrapped(r)
      case Assign(_, l, r) => LiteralsWrapped(l) && LiteralsWrapped(r)
      case Call(f, args) => LiteralsWrapped(f) && forall i | 0 <= i < |args| :: LiteralsWrapped(args[i])
      case Dot(o, _) => LiteralsWrapped(o)
      case Function(_, _, body) => forall i | 0 <= i < |body| :: LiteralsWrapped(body[i])
      case Other(_, _, kids) => forall i | 0 <= i < |kids| :: LiteralsWrapped(kids[i])
  }

  /** The rewrite leaves no bare numeric literal. */
  lemma {:induction false} TransformWrapsLiterals(t: Node)
    ensures LiteralsWrapped(Transform(t))
    decreases t, 1
  {
    match t
    case Num(_) =>
    case Name(_) =>
    case UnaryPrefix(op, e) => TransformWrapsLiterals(e); WrapsUnary(true, op, e);
    case UnaryPostfix(op, e) => TransformWrapsLiterals(e); WrapsUnary(false, op, e);
    case Binary(op, l, r) => TransformWrapsLiterals(l); TransformWrapsLiterals(r); WrapsBinary(op, l, r);
    case Assign(aop, l, r) => TransformWrapsLiterals(l); TransformWrapsLiterals(r); WrapsAssign(aop, l, r);
    case Dot(o, _) => TransformWrapsLiterals(o);
    case _ => WrapsLiteralsBelow(t);
  }

  /** The per-rule steps of `TransformWrapsLiterals`. */
  lemma WrapsUnary(prefix: bool, op: string, e: Node)
    requires LiteralsWrapped(Transform(e))
    ensures LiteralsWrapped(Transform(if prefix then UnaryPrefix(op, e) else UnaryPostfix(op, e)))
  {
  }

  lemma WrapsBinary(op: string, l: Node, r: Node)
    requires LiteralsWrapped(Transform(l)) && LiteralsWrapped(Transform(r))
    ensures LiteralsWrapped(Transform(Binary(op, l, r)))
  {
  }

  lemma WrapsAssign(aop: AssignOp, l: Node, r: Node)
    requires LiteralsWrapped(Transform(l)) && LiteralsWrapped(Transform(r))
    ensures LiteralsWrapped(Transform(Assign(aop, l, r)))
  {
  }

  /** `TransformWrapsLiterals` for the nodes with a sequence of children. */
  lemma {:induction false} WrapsLiteralsBelow(t: Node)
    requires t.Call? || t.Function? || t.Other?
    ensures LiteralsWrapped(Transform(t))
    decreases t, 0
  {
    match t
    case Call(f, args) =>
      TransformWrapsLiterals(f);
      forall i | 0 <= i < |args| ensures LiteralsWrapped(Transform(args[i])) {
        TransformWrapsLiterals(args[i]);
      }
      assert !Transform(f).Num?;
    case Function(_, _, body) =>
      forall i | 0 <= i < |body| ensures LiteralsWrapped(Transform(body[i])) {
        TransformWrapsLiterals(body[i]);
      }
    case Other(_, _, kids) =>
      forall i | 0 <= i < |kids| ensures LiteralsWrapped(Transform(kids[i])) {
        TransformWrapsLiterals(kids[i]);
      }
  }

  /** Sequences of trees with element-wise equal literals have equal
      literals. */
  lemma {:induction false} LiteralsAllPointwise(a: seq<Node>, b: seq<Node>)
    requires |a| == |b|
    requires forall i | 0 <= i < |a| :: Literals(a[i]) == Literals(b[i])
    ensures LiteralsAll(a) == LiteralsAll(b)
    decreases |a|
  {
    if |a| > 0 {
      LiteralsAllPointwise(a[1..], b[1..]);
    }
  }

  /** The literals of an `AD` call are those of its arguments. */
  lemma LiteralsOfADCall(m: string, args: seq<Node>)
    ensures Literals(ADCall(m, args)) == LiteralsAll(args)
    ensures |args| == 1 ==> LiteralsAll(args) == Literals(args[0])
    ensures |args| == 2 ==> LiteralsAll(args) == Literals(args[0]) + Literals(args[1])
  {
    assert Literals(Dot(Name("AD"), m)) == [];
    if |args| == 1 {
      assert LiteralsAll(args[1..]) == [];
    }
    if |args| == 2 {
      assert LiteralsAll(args[1..]) == Literals(args[1]) + LiteralsAll(args[2..]);
      assert LiteralsAll(args[2..]) == [];
    }
  }

  /** The rewrite keeps every literal, in order, and adds none: each one is
      visited exactly once. */
  lemma {:induction false} TransformKeepsLiterals(t: Node)
    ensures Literals(Transform(t)) == Literals(t)
    decreases t
  {
    match t
    case Num(n) =>
      assert [Num(n)][1..] == [];
      assert LiteralsAll([Num(n)]) == [n];
    case Name(_) =>
    case UnaryPrefix(op, e) =>
      TransformKeepsLiterals(e);
      if op in UnaryMethods {
        LiteralsOfADCall(UnaryMethods[op], [Transform(e)]);
      }
    case UnaryPostfix(op, e) =>
      TransformKeepsLiterals(e);
      if op in UnaryMethods {
        LiteralsOfADCall(UnaryMethods[op], [Transform(e)]);
      }
    case Binary(op, l, r) =>
      TransformKeepsLiterals(l); TransformKeepsLiterals(r);
      if op in BinaryMethods {
        LiteralsOfADCall(BinaryMethods[op], [Transform(l), Transform(r)]);
      }
    case Assign(aop, l, r) =>
      TransformKeepsLiterals(l); TransformKeepsLiterals(r);
      if aop.Compound? && aop.op in AssignMethods {
        LiteralsOfADCall(AssignMethods[aop.op], [Transform(l), Transform(r)]);
      }
    case Call(f, args) =>
      TransformKeepsLiterals(f);
      var args' := Transform(t).args;
      forall i | 0 <= i < |args| ensures Literals(args'[i]) == Literals(args[i]) {
        TransformKeepsLiterals(args[i]);
      }
      LiteralsAllPointwise(args', args);
    case Dot(o, _) => TransformKeepsLiterals(o);
    case Function(_, _, body) =>
      var body' := Transform(t).body;
      forall i | 0 <= i < |body| ensures Literals(body'[i]) == Literals(body[i]) {
        TransformKeepsLiterals(body[i]);
      }
      LiteralsAllPointwise(body', body);
    case Other(_, _, kids) =>
      var kids' := Transform(t).children;
      forall i | 0 <= i < |kids| ensures Literals(kids'[i]) == Literals(kids[i]) {
        TransformKeepsLiterals(kids[i]);
      }
      LiteralsAllPointwise(kids', kids);
  }

  /** A node the rewrite has nothing left to do with: not `Math`, and not an
      operator from one of the tables. */
  predicate Settled(t: Node)
  {
    t != Name("Math") && !IsMappedOperator(t)
  }

  /** A node the rewrite leaves as it is: settled, and not a literal. */
  predicate Inert(t: Node)
  {
    Settled(t) && !t.Num?
  }

  /** An `AD` call is settled when its arguments are. */
  lemma SettledADCall(m: string, args: seq<Node>)
    requires forall i | 0 <= i < |args| :: Every(Settled, args[i])
    ensures Every(Settled, ADCall(m, args))
  {
    assert Every(Settled, Dot(Name("AD"), m));
  }

  /** After the rewrite no `Math` reference and no table operator is left
      anywhere in the tree. */
  lemma {:induction false} TransformSettles(t: Node)
    ensures Every(Settled, Transform(t))
    decreases t, 1
  {
    match t
    case Num(n) =>
      assert Every(Settled, Num(n));
    case Name(_) =>
    case UnaryPrefix(op, e) => TransformSettles(e); SettlesUnary(true, op, e);
    case UnaryPostfix(op, e) => TransformSettles(e); SettlesUnary(false, op, e);
    case Binary(op, l, r) => TransformSettles(l); TransformSettles(r); SettlesBinary(op, l, r);
    case Assign(aop, l, r) => TransformSettles(l); TransformSettles(r); SettlesAssign(aop, l, r);
    case Dot(o, _) => TransformSettles(o);
    case _ => SettlesBelow(t);
  }

  /** The per-rule steps of `TransformSettles`. */
  lemma SettlesUnary(prefix: bool, op: string, e: Node)
    requires Every(Settled, Transform(e))
    ensures Every(Settled, Transform(if prefix then UnaryPrefix(op, e) else UnaryPostfix(op, e)))
  {
    if op in UnaryMethods { SettledADCall(UnaryMethods[op], [Transform(e)]); }
  }

  lemma SettlesBinary(op: string, l: Node, r: Node)
    requires Every(Settled, Transform(l)) && Every(Settled, Transform(r))
    ensures Every(Settled, Transform(Binary(op, l, r)))
  {
    if op in BinaryMethods { SettledADCall(BinaryMethods[op], [Transform(l), Transform(r)]); }
  }

  lemma SettlesAssign(aop: AssignOp, l: Node, r: Node)
    requires Every(Settled, Transform(l)) && Every(Settled, Transform(r))
    ensures Every(Settled, Transform(Assign(aop, l, r)))
  {
    if aop.Compound? && aop.op in AssignMethods {
      SettledADCall(AssignMethods[aop.op], [Transform(l), Transform(r)]);
    }
  }

  /** `TransformSettles` for the nodes with a sequence of children. */
  lemma {:induction false} SettlesBelow(t: Node)
    requires t.Call? || t.Function? || t.Other?
    ensures Every(Settled, Transform(t))
    decreases t, 0
  {
    match t
    case Call(f, args) =>
      TransformSettles(f);
      forall i | 0 <= i < |args| ensures Every(Settled, Transform(args[i])) {
        TransformSettles(args[i]);
      }
    case Function(_, _, body) =>
      forall i | 0 <= i < |body| ensures Every(Settled, Transform(body[i])) {
        TransformSettles(body[i]);
      }
    case Other(_, _, kids) =>
      forall i | 0 <= i < |kids| ensures Every(Settled, Transform(kids[i])) {
        TransformSettles(kids[i]);
      }
  }

  /** Pass-through is the identity: the rewrite returns `t` unchanged exactly
      when `t` has no literal, no `Math` and no table operator anywhere. */
  lemma {:induction false} TransformFixesExactlyInert(t: Node)
    ensures Transform(t) == t <==> Every(Inert, t)
    decreases t, 1
  {
    match t
    case Num(n) =>
    case Name(_) =>
    case UnaryPrefix(_, e) => TransformFixesExactlyInert(e);
    case UnaryPostfix(_, e) => TransformFixesExactlyInert(e);
    case Binary(_, l, r) => TransformFixesExactlyInert(l); TransformFixesExactlyInert(r);
    case Assign(_, l, r) => TransformFixesExactlyInert(l); TransformFixesExactlyInert(r);
    case Dot(o, _) => TransformFixesExactlyInert(o);
    case Call(_, _) => FixesCall(t);
    case Function(_, _, _) => FixesFunction(t);
    case Other(_, _, _) => FixesOther(t);
  }

  /** The cases of `TransformFixesExactlyInert` with a sequence of
      children. */
  lemma {:induction false} FixesCall(t: Node)
    requires t.Call?
    ensures Transform(t) == t <==> Every(Inert, t)
    decreases t, 0
  {
    var f, args := t.callee, t.args;
    TransformFixesExactlyInert(f);
    forall i | 0 <= i < |args| ensures Transform(args[i]) == args[i] <==> Every(Inert, args[i]) {
      TransformFixesExactlyInert(args[i]);
    }
    if Transform(t) == t {
      forall i | 0 <= i < |args| ensures Every(Inert, args[i]) {
        assert Transform(t).args[i] == args[i];
      }
    }
    if Every(Inert, t) {
      assert Transform(t).args == args;
    }
  }

  lemma {:induction false} FixesFunction(t: Node)
    requires t.Function?
    ensures Transform(t) == t <==> Every(Inert, t)
    decreases t, 0
  {
    var body := t.body;
    forall i | 0 <= i < |body| ensures Transform(body[i]) == body[i] <==> Every(Inert, body[i]) {
      TransformFixesExactlyInert(body[i]);
    }
    if Transform(t) == t {
      forall i | 0 <= i < |body| ensures Every(Inert, body[i]) {
        assert Transform(t).body[i] == body[i];
      }
    }
    if Every(Inert, t) {
      assert Transform(t).body == body;
    }
  }

  lemma {:induction false} FixesOther(t: Node)
    requires t.Other?
    ensures Transform(t) == t <==> Every(Inert, t)
    decreases t, 0
  {
    var kids := t.children;
    forall i | 0 <= i < |kids| ensures Transform(kids[i]) == kids[i] <==> Every(Inert, kids[i]) {
      TransformFixesExactlyInert(kids[i]);
    }
    if Transform(t) == t {
      forall i | 0 <= i < |kids| ensures Every(Inert, kids[i]) {
        assert Transform(t).children[i] == kids[i];
      }
    }
    if Every(Inert, t) {
      assert Transform(t).children == kids;
    }
  }

  /** A tree with a literal is not inert. */
  lemma {:induction false} LiteralNotInert(t: Node)
    requires |Literals(t)| > 0
    ensures !Every(Inert, t)
    decreases t
  {
    match t
    case Num(n) =>
    case Name(_) =>
    case UnaryPrefix(_, e) => LiteralNotInert(e);
    case UnaryPostfix(_, e) => LiteralNotInert(e);
    case Binary(_, l, r) => if |Literals(l)| > 0 { LiteralNotInert(l); } else { LiteralNotInert(r); }
    case Assign(_, l, r) => if |Literals(l)| > 0 { LiteralNotInert(l); } else { LiteralNotInert(r); }
    case Call(f, args) =>
      if |Literals(f)| > 0 {
        LiteralNotInert(f);
      } else {
        var i := NonEmptyPart(args);
        LiteralNotInert(args[i]);
      }
    case Dot(o, _) => LiteralNotInert(o);
    case Function(_, _, body) =>
      var i := NonEmptyPart(body);
      LiteralNotInert(body[i]);
    case Other(_, _, kids) =>
      var i := NonEmptyPart(kids);
      LiteralNotInert(kids[i]);
  }

  /** A sequence of trees with a literal has a tree with a literal. */
  lemma {:induction false} NonEmptyPart(ts: seq<Node>) returns (i: nat)
    requires |LiteralsAll(ts)| > 0
    ensures i < |ts| && |Literals(ts[i])| > 0
    decreases |ts|
  {
    if |Literals(ts[0])| > 0 {
      i := 0;
    } else {
      var j := NonEmptyPart(ts[1..]);
      i := j + 1;
    }
  }

  /** The rewrite must run once per tree: on its own output it wraps every
      literal a second time, so any tree with a literal is changed again. */
  lemma TransformTwiceDoubleWraps(t: Node)
    requires |Literals(t)| > 0
    ensures Transform(Transform(t)) != Transform(t)
  {
    TransformKeepsLiterals(t);
    LiteralNotInert(Transform(t));
    TransformFixesExactlyInert(Transform(t));
  }
}

=== FILE: samples.dfy ===
/** Worked cases of `diff`: three functions returning an expression, and
    three on which the rewritten code cannot reach the runtime because a
    parameter hides it or hides the argument. */
module Samples {
  import opened Wrappers
  import opened DualNumbers
  import opened Syntax
  import opened Rewriting
  import opened Semantics
  import opened Derivative
  import opened Forward
  import opened Programs
  import opened DiffFacts

  /** `function name(x) { return e; }` */
  function Returning(name: string, x: string, e: Node): Node
  {
    Function(name, [x], [StmtNode(Return(e))])
  }

  /** The symbolic derivative of `x * x` has the value `2 * at`. */
  lemma SquareDerivative(x: string, at: real)
    requires x != "Math"
    ensures var e := Binary("*", Name(x), Name(x));
            Supported(e) && Value(x, at, e).Some? && Value(x, at, Deriv(x, e)) == Some(2.0 * at)
  {
    var e := Binary("*", Name(x), Name(x));
    var t := Binary("*", Name(x), Num(1.0));
    assert ArithOf("*") == Some(MulOp) && Supported(e);
    assert Deriv(x, e) == Binary("+", t, t);
    assert Value(x, at, e).Some?;
    assert Value(x, at, t) == Some(at);
    assert Value(x, at, Binary("+", t, t)) == Some(at + at);
  }

  /** `diff(function(x) { return x * x; }, at)` is `2 * at`. */
  lemma SquareSample(name: string, x: string, at: real)
    requires x != "Math" && HygienicHeader(name, [x])
    ensures Diff(InPlace, Returning(name, x, Binary("*", Name(x), Name(x))), at) == Some(2.0 * at)
  {
    assert [x] + [] == [x];
    SquareDerivative(x, at);
    DiffOfExpression(InPlace, name, x, [], Binary("*", Name(x), Name(x)), at);
  }

  /** The symbolic derivative of `Math.PI * x` has the value `PI`. */
  lemma ConstantFactorDerivative(x: string, at: real)
    requires x != "Math"
    ensures var e := Binary("*", Dot(Name("Math"), "PI"), Name(x));
            Supported(e) && Value(x, at, e).Some? && Value(x, at, Deriv(x, e)) == Some(MathValue(PI))
  {
    var e := Binary("*", Dot(Name("Math"), "PI"), Name(x));
    assert ConstantNamed("PI") == Some(PI);
    assert ArithOf("*") == Some(MulOp) && Supported(e);
    var pi, zero := Binary("*", Dot(Name("Math"), "PI"), Num(1.0)), Binary("*", Name(x), Num(0.0));
    assert Deriv(x, e) == Binary("+", pi, zero);
    assert Value(x, at, e).Some?;
    assert Value(x, at, pi) == Some(MathValue(PI) * 1.0);
    assert Value(x, at, zero) == Some(at * 0.0);
    assert Value(x, at, Binary("+", pi, zero)) == Some(MathValue(PI) * 1.0 + at * 0.0);
  }

  /** `diff(function(x) { return Math.PI * x; }, at)` is the constant `PI`. */
  lemma ConstantFactorSample(name: string, x: string, at: real)
    requires x != "Math" && HygienicHeader(name, [x])
    ensures Diff(InPlace, Returning(name, x, Binary("*", Dot(Name("Math"), "PI"), Name(x))), at) == Some(MathValue(PI))
  {
    assert [x] + [] == [x];
    ConstantFactorDerivative(x, at);
    DiffOfExpression(InPlace, name, x, [], Binary("*", Dot(Name("Math"), "PI"), Name(x)), at);
  }

  /** `diff(function(x) { return 1 / x; }, at)` is `-1 / at²` away from 0,
      and fails at 0. */
  lemma ReciprocalSample(name: string, x: string, at: real)
    requires x != "Math" && HygienicHeader(name, [x])
    ensures at != 0.0 ==> Diff(InPlace, Returning(name, x, Binary("/", Num(1.0), Name(x))), at) == Some(-1.0 / (at * at))
    ensures at == 0.0 ==> Diff(InPlace, Returning(name, x, Binary("/", Num(1.0), Name(x))), at) == None
  {
    var e := Binary("/", Num(1.0), Name(x));
    assert [x] + [] == [x];
    DiffOfExpression(InPlace, name, x, [], e, at);
    if at == 0.0 {
      assert Value(x, at, e) == None;
    } else {
      ReciprocalDerivative(x, at);
    }
  }

  /** The symbolic derivative of `1 / x` has the value `-1 / at²`. */
  lemma ReciprocalDerivative(x: string, at: real)
    requires x != "Math" && at != 0.0
    ensures var e := Binary("/", Num(1.0), Name(x));
            Supported(e) && Value(x, at, e).Some? && Value(x, at, Deriv(x, e)).Some? && Value(x, at, Deriv(x, e)).value == -1.0 / (at * at)
  {
    var e := Binary("/", Num(1.0), Name(x));
    var num := Binary("-", Binary("*", Name(x), Num(0.0)), Binary("*", Num(1.0), Num(1.0)));
    assert ArithOf("/") == Some(DivOp) && Supported(e);
    assert Deriv(x, e) == Binary("/", num, Binary("*", Name(x), Name(x)));
    assert Value(x, at, e) == Some(1.0 / at);
    assert Value(x, at, Binary("*", Name(x), Num(0.0))) == Some(at * 0.0);
    assert Value(x, at, Binary("*", Num(1.0), Num(1.0))) == Some(1.0);
    assert Value(x, at, num) == Some(at * 0.0 - 1.0);
    ValueOverSquare(x, at, num, Name(x), -1.0, at);
  }

  /** The body of a function returning `e`, rewritten: one `return` of the
      rewrite of `e`. */
  lemma ReturningRewrite(mode: Lowering, e: Node)
    ensures RewriteBody(mode, [StmtNode(Return(e))]) == [StmtNode(Return(Rewrite(mode, e)))]
  {
    RewriteStmtNode(mode, Return(e));
  }

  /** `diff` of a function returning `e` fails when the rewrite of `e`
      fails on the start machine. */
  lemma ReturningFails(mode: Lowering, name: string, ps: seq<string>, e: Node, at: real)
    requires HeapEval(Start(ps, Hidden(name, ps, [StmtNode(Return(e))]), at), Rewrite(mode, e)).None?
    ensures Diff(mode, Function(name, ps, [StmtNode(Return(e))]), at) == None
  {
    ReturningRewrite(mode, e);
    StmtRoundTrip(Return(Rewrite(mode, e)));
    DiffFails(mode, Function(name, ps, [StmtNode(Return(e))]), at);
  }

  /** `diff(function(AD) { return AD * AD; }, at)` fails: the parameter
      hides the runtime, so the rewritten `AD.mul(AD, AD)` calls a method
      of the argument, which has none. */
  lemma HiddenRuntimeSample(mode: Lowering, name: string, at: real)
    ensures Diff(mode, Returning(name, "AD", Binary("*", Name("AD"), Name("AD"))), at) == None
  {
    var e := Binary("*", Name("AD"), Name("AD"));
    var m := Start(["AD"], Hidden(name, ["AD"], [StmtNode(Return(e))]), at);
    assert Rewrite(mode, e) == ADCall("mul", [Name("AD"), Name("AD")]);
    assert "AD" in View(m);
    assert HeapEval(m, Rewrite(mode, e)) == None;
    ReturningFails(mode, name, ["AD"], e, at);
  }

  /** `diff(function(Dual) { return Dual * 2; }, at)` fails: the parameter
      hides the constructor the rewritten literal `Dual(2)` calls. */
  lemma HiddenDualSample(mode: Lowering, name: string, at: real)
    ensures Diff(mode, Returning(name, "Dual", Binary("*", Name("Dual"), Num(2.0))), at) == None
  {
    var e := Binary("*", Name("Dual"), Num(2.0));
    var m := Start(["Dual"], Hidden(name, ["Dual"], [StmtNode(Return(e))]), at);
    assert Rewrite(mode, e) == ADCall("mul", [Name("Dual"), Literal(2.0)]);
    assert "Dual" in View(m);
    assert HeapEval(m, Literal(2.0)) == None;
    assert HeapEval(m, Rewrite(mode, e)) == None;
    ReturningFails(mode, name, ["Dual"], e, at);
  }

  /** `diff(function(x, x) { return x * x; }, at)` fails: the second `x`
      stands for the missing second argument and hides the first. */
  lemma RepeatedParameterSample(mode: Lowering, name: string, x: string, at: real)
    requires x != "Math"
    ensures Diff(mode, Function(name, [x, x], [StmtNode(Return(Binary("*", Name(x), Name(x))))]), at) == None
  {
    var e := Binary("*", Name(x), Name(x));
    var m := Start([x, x], Hidden(name, [x, x], [StmtNode(Return(e))]), at);
    assert [x, x][1..] == [x];
    assert View(m) == map[];
    assert Rewrite(mode, e) == ADCall("mul", [Rewrite(mode, Name(x)), Rewrite(mode, Name(x))]);
    assert HeapEval(m, Rewrite(mode, Name(x))) == None;
    assert HeapEval(m, Rewrite(mode, e)) == None;
    ReturningFails(mode, name, [x, x], e, at);
  }
}

=== FILE: semantics.dfy ===
/** What a tree means over dual numbers, in two ways: `Interp` reads the
    ORIGINAL tree with its operators overloaded on duals (the meaning the
    rewrite is meant to realise), and `Eval` runs the REWRITTEN tree against
    the `AD` runtime of autodiff.js. The fragment both agree on is the
    parameter, numeric literals, the `Math` constants, unary minus,
    `+ - * /`, and conditionals `c ? a : b` on the comparisons. */
module Semantics {
  import opened Wrappers
  import opened DualNumbers
  import opened Syntax
  import opened Rewriting

  /** The duals bound to the program's variables. */
  type Env = map<string, Dual>

  /** The arithmetic a binary operator symbol denotes. */
  function ArithOf(op: string): Option<ArithOp>
  {
    if op == "+" then Some(AddOp)
    else if op == "-" then Some(SubOp)
    else if op == "*" then Some(MulOp)
    else if op == "/" then Some(DivOp)
    else None
  }

  /** The arithmetic an `AD` method performs. */
  function ArithMethod(m: string): Option<ArithOp>
  {
    if m == "add" then Some(AddOp)
    else if m == "sub" then Some(SubOp)
    else if m == "mul" then Some(MulOp)
    else if m == "div" then Some(DivOp)
    else None
  }

  datatype Comparison = GtOp | GteOp | LtOp | LteOp | EqOp

  function Compare(c: Comparison, x: Dual, y: Dual): bool
  {
    match c
    case GtOp => Gt(x, y)
    case GteOp => Gte(x, y)
    case LtOp => Lt(x, y)
    case LteOp => Lte(x, y)
    case EqOp => Eq(x, y)
  }

  /** The comparison a binary operator symbol denotes; `==` and `===` are
      the same comparison on values. */
  function ComparisonOf(op: string): Option<Comparison>
  {
    if op == ">" then Some(GtOp)
    else if op == ">=" then Some(GteOp)
    else if op == "<" then Some(LtOp)
    else if op == "<=" then Some(LteOp)
    else if op == "==" || op == "===" then Some(EqOp)
    else None
  }

  /** The comparison an `AD` method performs. */
  function ComparisonMethod(m: string): Option<Comparison>
  {
    if m == "gt" then Some(GtOp)
    else if m == "gte" then Some(GteOp)
    else if m == "lt" then Some(LtOp)
    else if m == "lte" then Some(LteOp)
    else if m == "eq" then Some(EqOp)
    else None
  }

  /** The binary table sends each arithmetic and comparison symbol to the
      `AD` method that performs the same operation. */
  lemma BinaryTableAgrees(op: string)
    ensures ArithOf(op).Some? ==> op in BinaryMethods && ArithMethod(BinaryMethods[op]) == ArithOf(op)
    ensures ComparisonOf(op).Some? ==> op in BinaryMethods && ComparisonMethod(BinaryMethods[op]) == ComparisonOf(op)
  {
  }

  /** `c ? a : b`. */
  predicate IsConditional(t: Node)
  {
    t.Other? && t.kind == "conditional" && |t.labels| == 0 && |t.children| == 3
  }

  /** The fragment: every node is the parameter or another variable, a
      literal, a `Math` constant, unary minus, `+ - * /`, or a conditional
      whose test is a comparison. */
  predicate Supported(t: Node)
    decreases t
  {
    match t
    case Num(_) => true
    case Name(x) => x != "Math"
    case Dot(o, p) => o == Name("Math") && ConstantNamed(p).Some?
    case UnaryPrefix(op, e) => op == "-" && Supported(e)
    case Binary(op, l, r) => ArithOf(op).Some? && Supported(l) && Supported(r)
    case Other(_, _, kids) => IsConditional(t) && SupportedTest(kids[0]) && Supported(kids[1]) && Supported(kids[2])
    case _ => false
  }

  /** A comparison of two fragment expressions. */
  predicate SupportedTest(t: Node)
    decreases t
  {
    t.Binary? && ComparisonOf(t.op).Some? && Supported(t.left) && Supported(t.right)
  }

  /** The original tree with `+ - * /`, unary minus, the comparisons and the
      literals read as dual-number operations. `None` when a variable is
      unbound, a divisor is zero, or the tree leaves the fragment. */
  function Interp(env: Env, t: Node): Option<Dual>
    decreases t
  {
    match t
    case Num(n) => Some(Constant(n))
    case Name(x) => if x != "Math" && x in env then Some(env[x]) else None
    case Dot(o, p) =>
      if o == Name("Math") && ConstantNamed(p).Some? then Some(ConstantDual(ConstantNamed(p).value)) else None
    case UnaryPrefix(op, e) =>
      if op != "-" then None
      else (match Interp(env, e)
        case None => None
        case Some(d) => Some(Neg(d)))
    case Binary(op, l, r) =>
      if ArithOf(op).None? then None
      else (match (Interp(env, l), Interp(env, r))
        case (Some(x), Some(y)) => Arith(ArithOf(op).value, x, y)
        case _ => None)
    case Other(_, _, kids) =>
      if !IsConditional(t) then None
      else (match InterpTest(env, kids[0])
        case None => None
        case Some(b) => if b then Interp(env, kids[1]) else Interp(env, kids[2]))
    case _ => None
  }

  /** The original comparison read on duals. */
  function InterpTest(env: Env, t: Node): Option<bool>
    decreases t
  {
    if !t.Binary? || ComparisonOf(t.op).None? then None
    else match (Interp(env, t.left), Interp(env, t.right))
      case (Some(x), Some(y)) => Some(Compare(ComparisonOf(t.op).value, x, y))
      case _ => None
  }

  /** The position of each constant among the `AD` object's eight
      constant duals. */
  function ConstantIndex(c: MathConstant): (i: nat)
    ensures i < |Constants| && Constants[i] == ConstantDual(c)
  {
    match c
    case PI => 0
    case E => 1
    case LOG2E => 2
    case LN2 => 3
    case LN10 => 4
    case LOG10E => 5
    case SQRT2 => 6
    case SQRT1_2 => 7
  }

  /** The constant duals `AD.PI` .. `AD.SQRT1_2` as the runtime creates
      them. */
  const Constants: seq<Dual> :=
    [ConstantDual(PI), ConstantDual(E), ConstantDual(LOG2E), ConstantDual(LN2),
     ConstantDual(LN10), ConstantDual(LOG10E), ConstantDual(SQRT2), ConstantDual(SQRT1_2)]

  /** The runtime the rewritten code reaches through the globals `AD` and
      `Dual`: the contents of the `AD` constant objects, and the names among
      `AD` and `Dual` the called function declares (its own name, a
      parameter, a hoisted `var`), which hide the globals throughout its
      body. */
  datatype Runtime = Runtime(consts: seq<Dual>, hidden: set<string>)

  /** The global `n` is in scope: no variable and no declared name hides
      it. */
  predicate Sees(rt: Runtime, env: Env, n: string)
  {
    n !in env && n !in rt.hidden
  }

  /** No variable hides a global the rewrite introduces. */
  predicate Hygienic(env: Env)
  {
    "AD" !in env && "Dual" !in env
  }

  /** The rewritten tree run against the `AD` runtime `rt`: `Dual(n)`, the
      `AD` constants, and the calls `AD.neg`, `AD.add` .. `AD.div`. The
      names `AD` and `Dual` are looked up like any other, so a variable of
      that name hides the runtime and the lookup fails. */
  function EvalIn(rt: Runtime, env: Env, t: Node): Option<Dual>
    decreases t
  {
    match t
    case Name(x) => if x in env then Some(env[x]) else None
    case Dot(o, p) =>
      if o == Name("AD") && Sees(rt, env, "AD") && ConstantNamed(p).Some?
         && ConstantIndex(ConstantNamed(p).value) < |rt.consts|
      then Some(rt.consts[ConstantIndex(ConstantNamed(p).value)]) else None
    case Call(f, args) =>
      if f == Name("Dual") && Sees(rt, env, "Dual") && |args| == 1 && args[0].Num? then Some(Constant(args[0].n))
      else if !(f.Dot? && f.obj == Name("AD") && Sees(rt, env, "AD")) then None
      else if f.prop == "neg" && |args| == 1 then
        (match EvalIn(rt, env, args[0])
         case None => None
         case Some(d) => Some(Neg(d)))
      else if ArithMethod(f.prop).Some? && |args| == 2 then
        (match (EvalIn(rt, env, args[0]), EvalIn(rt, env, args[1]))
         case (Some(x), Some(y)) => Arith(ArithMethod(f.prop).value, x, y)
         case _ => None)
      else None
    case Other(_, _, kids) =>
      if !IsConditional(t) then None
      else (match EvalTestIn(rt, env, kids[0])
        case None => None
        case Some(b) => if b then EvalIn(rt, env, kids[1]) else EvalIn(rt, env, kids[2]))
    case _ => None
  }

  /** A rewritten comparison `AD.lt(a, b)` etc. run against the runtime. */
  function EvalTestIn(rt: Runtime, env: Env, t: Node): Option<bool>
    decreases t
  {
    if !(t.Call? && t.callee.Dot? && t.callee.obj == Name("AD") && Sees(rt, env, "AD")
         && ComparisonMethod(t.callee.prop).Some? && |t.args| == 2) then None
    else match (EvalIn(rt, env, t.args[0]), EvalIn(rt, env, t.args[1]))
      case (Some(x), Some(y)) => Some(Compare(ComparisonMethod(t.callee.prop).value, x, y))
      case _ => None
  }

  /** The rewritten tree run against the runtime with its constants as
      created, from code that declares neither `AD` nor `Dual`. */
  function Eval(env: Env, t: Node): Option<Dual>
  {
    EvalIn(Runtime(Constants, {}), env, t)
  }

  function EvalTest(env: Env, t: Node): Option<bool>
  {
    EvalTestIn(Runtime(Constants, {}), env, t)
  }

  /** A variable named `AD` hides the runtime object, so every `AD` call
      and constant of the rewritten tree fails; one named `Dual` makes
      every lifted literal fail. */
  lemma HiddenRuntime(env: Env, m: string, args: seq<Node>, p: string, n: real)
    ensures "AD" in env ==> Eval(env, ADCall(m, args)) == None && Eval(env, Dot(Name("AD"), p)) == None
    ensures "Dual" in env ==> Eval(env, Literal(n)) == None
  {
  }

  /** One step of the soundness proofs below, per rule: given that the
      operands' rewrites are sound, so is the node's. */
  lemma NegStep(mode: Lowering, env: Env, e: Node)
    requires Hygienic(env)
    requires Eval(env, Rewrite(mode, e)) == Interp(env, e)
    ensures Eval(env, Rewrite(mode, UnaryPrefix("-", e))) == Interp(env, UnaryPrefix("-", e))
  {
    assert Rewrite(mode, UnaryPrefix("-", e)) == ADCall("neg", [Rewrite(mode, e)]);
  }

  /** A call of an arithmetic `AD` method runs that operation on its
      operands' values. */
  lemma EvalArithCall(env: Env, m: string, a: Node, b: Node)
    requires Hygienic(env)
    requires ArithMethod(m).Some?
    ensures Eval(env, ADCall(m, [a, b]))
            == if Eval(env, a).Some? && Eval(env, b).Some?
               then Arith(ArithMethod(m).value, Eval(env, a).value, Eval(env, b).value) else None
  {
    assert m != "neg";
  }

  /** The step for `+ - * /`. */
  lemma ArithStep(mode: Lowering, env: Env, op: string, l: Node, r: Node)
    requires Hygienic(env)
    requires ArithOf(op).Some?
    requires Eval(env, Rewrite(mode, l)) == Interp(env, l)
    requires Eval(env, Rewrite(mode, r)) == Interp(env, r)
    ensures Eval(env, Rewrite(mode, Binary(op, l, r))) == Interp(env, Binary(op, l, r))
  {
    BinaryTableAgrees(op);
    var m := BinaryMethods[op];
    assert Rewrite(mode, Binary(op, l, r)) == ADCall(m, [Rewrite(mode, l), Rewrite(mode, r)]);
    EvalArithCall(env, m, Rewrite(mode, l), Rewrite(mode, r));
  }

  /** The step for a comparison. */
  lemma ComparisonStep(mode: Lowering, env: Env, t: Node)
    requires Hygienic(env)
    requires t.Binary? && ComparisonOf(t.op).Some?
    requires Eval(env, Rewrite(mode, t.left)) == Interp(env, t.left)
    requires Eval(env, Rewrite(mode, t.right)) == Interp(env, t.right)
    ensures EvalTest(env, Rewrite(mode, t)) == InterpTest(env, t)
  {
    BinaryTableAgrees(t.op);
    assert Rewrite(mode, t) == ADCall(BinaryMethods[t.op], [Rewrite(mode, t.left), Rewrite(mode, t.right)]);
  }

  /** The step for a conditional. */
  lemma ConditionalStep(mode: Lowering, env: Env, t: Node)
    requires IsConditional(t)
    requires EvalTest(env, Rewrite(mode, t.children[0])) == InterpTest(env, t.children[0])
    requires InterpTest(env, t.children[0]) == Some(true) ==>
               Eval(env, Rewrite(mode, t.children[1])) == Interp(env, t.children[1])
    requires InterpTest(env, t.children[0]) == Some(false) ==>
               Eval(env, Rewrite(mode, t.children[2])) == Interp(env, t.children[2])
    ensures Eval(env, Rewrite(mode, t)) == Interp(env, t)
  {
    var t' := Rewrite(mode, t);
    assert IsConditional(t');
    assert forall i | 0 <= i < 3 :: t'.children[i] == Rewrite(mode, t.children[i]);
  }

  /** On the fragment, running the rewritten tree against the `AD` runtime
      is exactly the overloaded reading of the original: the same dual when
      one exists, and failure (an unbound variable, a zero divisor) when it
      does not, as long as no variable hides `AD` or `Dual`. Both lowerings
      agree here, as the fragment has no assignment. */
  lemma {:induction false} RewriteSound(mode: Lowering, env: Env, t: Node)
    requires Hygienic(env)
    requires Supported(t)
    ensures Eval(env, Rewrite(mode, t)) == Interp(env, t)
    decreases t, 1
  {
    match t
    case Num(_) =>
    case Name(_) =>
    case Dot(_, _) =>
    case UnaryPrefix(_, e) =>
      RewriteSound(mode, env, e);
      NegStep(mode, env, e);
    case Binary(op, l, r) =>
      RewriteSound(mode, env, l);
      RewriteSound(mode, env, r);
      ArithStep(mode, env, op, l, r);
    case Other(_, _, kids) =>
      RewriteTestSound(mode, env, kids[0]);
      RewriteSound(mode, env, kids[1]);
      RewriteSound(mode, env, kids[2]);
      ConditionalStep(mode, env, t);
  }

  /** The same for the test of a conditional. */
  lemma {:induction false} RewriteTestSound(mode: Lowering, env: Env, t: Node)
    requires Hygienic(env)
    requires SupportedTest(t)
    ensures EvalTest(env, Rewrite(mode, t)) == InterpTest(env, t)
    decreases t, 0
  {
    RewriteSound(mode, env, t.left);
    RewriteSound(mode, env, t.right);
    ComparisonStep(mode, env, t);
  }

  /** Whenever the original tree has an overloaded meaning (the branch of a
      conditional that is not taken may be anything) and no variable hides
      `AD` or `Dual`, the rewritten tree computes that same dual. */
  lemma {:induction false} RewritePreservesMeaning(mode: Lowering, env: Env, t: Node)
    requires Hygienic(env)
    requires Interp(env, t).Some?
    ensures Eval(env, Rewrite(mode, t)) == Interp(env, t)
    decreases t, 1
  {
    match t
    case Num(_) =>
    case Name(_) =>
    case Dot(_, _) =>
    case UnaryPrefix(_, e) =>
      RewritePreservesMeaning(mode, env, e);
      NegStep(mode, env, e);
    case Binary(op, l, r) =>
      RewritePreservesMeaning(mode, env, l);
      RewritePreservesMeaning(mode, env, r);
      ArithStep(mode, env, op, l, r);
    case Other(_, _, kids) =>
      RewriteTestPreservesMeaning(mode, env, kids[0]);
      if InterpTest(env, kids[0]).value {
        RewritePreservesMeaning(mode, env, kids[1]);
      } else {
        RewritePreservesMeaning(mode, env, kids[2]);
      }
      ConditionalStep(mode, env, t);
  }

  /** The same for the test of a conditional. */
  lemma {:induction false} RewriteTestPreservesMeaning(mode: Lowering, env: Env, t: Node)
    requires Hygienic(env)
    requires InterpTest(env, t).Some?
    ensures EvalTest(env, Rewrite(mode, t)) == InterpTest(env, t)
    decreases t, 0
  {
    RewritePreservesMeaning(mode, env, t.left);
    RewritePreservesMeaning(mode, env, t.right);
    ComparisonStep(mode, env, t);
  }
}

=== FILE: syntax.dfy ===
/** The syntax tree that the rewrite consumes and produces, and the three
    operator tables of `transform` (autodiff.js). */
module Syntax {

  /** The operator of an assignment node: `=` or a compound `op=`. */
  datatype AssignOp = Plain | Compound(op: string)

  /** A node of the tree, tagged by kind. The kinds the rewrite treats
      specially have their own constructors; `Function` and `Other` stand
      for every remaining kind (blocks, `var`, `return`, conditionals, loops,
      string literals, ...), with `labels` holding the node's non-tree
      attributes (declared names, strings) and `children` its sub-trees in
      order. */
  datatype Node =
    | Num(n: real)
    | Name(id: string)
    | UnaryPrefix(op: string, expr: Node)
    | UnaryPostfix(op: string, expr: Node)
    | Binary(op: string, left: Node, right: Node)
    | Assign(aop: AssignOp, lvalue: Node, rvalue: Node)
    | Call(callee: Node, args: seq<Node>)
    | Dot(obj: Node, prop: string)
    | Function(fname: string, params: seq<string>, body: seq<Node>)
    | Other(kind: string, labels: seq<string>, children: seq<Node>)

  /** The binary operators that become `AD` calls; `==` and `===` both
      become `eq`. */
  const BinaryMethods: map<string, string> :=
    map["+" := "add", "-" := "sub", "*" := "mul", "/" := "div",
        "<" := "lt", "<=" := "lte", ">" := "gt", ">=" := "gte",
        "==" := "eq", "===" := "eq"]

  /** The unary operators (prefix or postfix) that become `AD` calls. */
  const UnaryMethods: map<string, string> :=
    map["-" := "neg", "--" := "decr", "++" := "incr"]

  /** The compound-assignment operators that become `AD` mutator calls. */
  const AssignMethods: map<string, string> :=
    map["+" := "addAssign", "-" := "subAssign", "*" := "mulAssign", "/" := "divAssign"]

  /** `AD.<m>(args)`. */
  function ADCall(m: string, args: seq<Node>): Node
  {
    Call(Dot(Name("AD"), m), args)
  }

  /** `Dual(n)`: a numeric literal lifted to a constant dual. */
  function Literal(n: real): Node
  {
    Call(Name("Dual"), [Num(n)])
  }

  /** `t` is the lifted literal `Dual(n)` for some `n`. */
  predicate IsLiteral(t: Node)
  {
    t.Call? && t.callee == Name("Dual") && |t.args| == 1 && t.args[0].Num?
  }

  /** The node would be rewritten by one of the three tables. */
  predicate IsMappedOperator(t: Node)
  {
    || (t.UnaryPrefix? && t.op in UnaryMethods)
    || (t.UnaryPostfix? && t.op in UnaryMethods)
    || (t.Binary? && t.op in BinaryMethods)
    || (t.Assign? && t.aop.Compound? && t.aop.op in AssignMethods)
  }

  /** `p` holds of `t` and of every node below it. */
  predicate Every(p: Node -> bool, t: Node)
    decreases t
  {
    && p(t)
    && match t
       case Num(_) => true
       case Name(_) => true
       case UnaryPrefix(_, e) => Every(p, e)
       case UnaryPostfix(_, e) => Every(p, e)
       case Binary(_, l, r) => Every(p, l) && Every(p, r)
       case Assign(_, l, r) => Every(p, l) && Every(p, r)
       case Call(f, args) => Every(p, f) && forall i | 0 <= i < |args| :: Every(p, args[i])
       case Dot(o, _) => Every(p, o)
       case Function(_, _, body) => forall i | 0 <= i < |body| :: Every(p, body[i])
       case Other(_, _, kids) => forall i | 0 <= i < |kids| :: Every(p, kids[i])
  }

  /** The numeric literals of `t`, in source order. */
  function Literals(t: Node): seq<real>
    decreases t
  {
    match t
    case Num(n) => [n]
    case Name(_) => []
    case UnaryPrefix(_, e) => Literals(e)
    case UnaryPostfix(_, e) => Literals(e)
    case Binary(_, l, r) => Literals(l) + Literals(r)
    case Assign(_, l, r) => Literals(l) + Literals(r)
    case Call(f, args) => Literals(f) + LiteralsAll(args)
    case Dot(o, _) => Literals(o)
    case Function(_, _, body) => LiteralsAll(body)
    case Other(_, _, kids) => LiteralsAll(kids)
  }

  /** The numeric literals of a sequence of trees, in order. */
  function LiteralsAll(ts: seq<Node>): seq<real>
    decreases ts
  {
    if |ts| == 0 then [] else Literals(ts[0]) + LiteralsAll(ts[1..])
  }
}

=== FILE: wrappers.dfy ===
/** The optional-value wrapper used for evaluations that can fail. */
module Wrappers {

  /** `None` stands for an evaluation that raises, reads an unbound name,
      or leaves the modelled fragment. */
  datatype Option<+T> = None | Some(value: T)
}
